=== FILE: README.md ===
# ShadowGuard (dam-android) client core in Dafny

This project models the client logic of ShadowGuard, an Android app for
device security. The model covers:

- the form rules of the login, sign-up, forgot-password, OTP, reset-password
  and update-profile screens;
- `TokenManager`, the key/value store holding the access token, the refresh
  token and the user's id and email;
- `AuthRepository`, which turns each REST call into an `ApiResult`, including
  the refresh-once-and-retry-once path of `getDeviceStatus`;
- the Register Device screen's decision of whether this device is registered,
  and its registration call;
- the Installed Apps screen's risk heuristic, scan upload and remediation;
- the navigation graph's start destination and the back stack each screen
  callback leaves;
- the `User.uid` convenience identifier.

State is immutable datatypes, and every handler is a pure function from the
old state to the new one. The model replaces each outside effect with a value:

- An HTTP call is an `Api.Http` value: a response, or an exception.
- The Android email pattern is the parameter `isValidEmail`.
- The random draw `Random().nextInt(20) == 0` is the parameter `roll`.
- The package manager's installed list and labels are the parameters `all`
  and `labels`.
- `ANDROID_ID` is the parameter `androidId`.
- The shared-preferences device identifier is the `cache` value.

Repository calls also return the trace of requests they sent. This is how the
model can state "no request is made" and "one refresh, then one retry".

Kotlin's text operations are modelled as the JVM defines them:

- `isBlank` and `trim` use `Char.isWhitespace`, which takes in the Unicode
  space separators.
- `String.length` counts UTF-16 code units.
- `contains(..., ignoreCase = true)` also accepts the characters that
  case-fold to ASCII letters: long s, dotless i, dotted capital I and the
  Kelvin sign.

Source paths below are relative to the repository root.

## Model

| member | source | states |
|---|---|---|
| Text.LeadingWhitespace | app/src/main/java/tn/esprit/dam_android/screens/login/LoginScreen.kt:77-80 | every character before the returned position is whitespace and the character at it, if any, is not |
| Text.TrailingWhitespaceStart | app/src/main/java/tn/esprit/dam_android/screens/login/LoginScreen.kt:77-80 | every character from the returned position on is whitespace and the one just before it, if any, is not |
| Text.Trim | app/src/main/java/tn/esprit/dam_android/screens/login/LoginScreen.kt:77-80 | `trim()`: the result has no whitespace at either end and is a slice of the input with only whitespace around it |
| Text.BlankIffTrimsToEmpty | app/src/main/java/tn/esprit/dam_android/screens/login/LoginValidation.kt:16-23 | `isBlank()` holds exactly when trimming leaves the empty string |
| Text.TrimmedIsFixpoint | app/src/main/java/tn/esprit/dam_android/screens/login/LoginScreen.kt:77-80 | trimming an already trimmed string changes nothing |
| Text.TrimIdempotent | app/src/main/java/tn/esprit/dam_android/screens/login/ForgotPasswordScreen.kt:105-108 | trimming twice is the same as trimming once |
| Text.TrimmedBlankIsEmpty | app/src/main/java/tn/esprit/dam_android/screens/profile/UpdateProfileScreen.kt:177-180 | a trimmed field is blank exactly when it is empty |
| Text.Utf16Units | app/src/main/java/tn/esprit/dam_android/screens/login/OTPScreen.kt:103 | a character takes one UTF-16 code unit in the Basic Multilingual Plane and two above it |
| Text.Utf16Length | app/src/main/java/tn/esprit/dam_android/screens/login/LoginValidation.kt:29 | `String.length` lies between the character count and twice it, and equals the character count when every character is in the Basic Multilingual Plane |
| Text.IndexOfIgnoreCase | app/src/main/java/tn/esprit/dam_android/screens/apps/AppsScreen.kt:585-586 | the result is the first position at or after `from` where the needle matches ignoring case, or -1 when it matches nowhere |
| Text.ContainsIgnoreCase | app/src/main/java/tn/esprit/dam_android/screens/apps/AppsScreen.kt:585-586 | `contains(needle, ignoreCase = true)` holds exactly when the needle matches ignoring case at some position |
| Seqs.Filter | app/src/main/java/tn/esprit/dam_android/screens/apps/AppsScreen.kt:573-576 | `filter` keeps exactly the elements the predicate accepts and never grows the list |
| Seqs.FilterCounts | app/src/main/java/tn/esprit/dam_android/screens/apps/AppsScreen.kt:573-576 | each value occurs in the filtered list as often as in the input when the predicate accepts it, and not at all otherwise |
| Seqs.FilterConcat | app/src/main/java/tn/esprit/dam_android/screens/apps/AppsScreen.kt:573-576 | filtering a concatenation is concatenating the filtered parts, so the order is kept |
| Seqs.FilterKeepsAll | app/src/main/java/tn/esprit/dam_android/screens/apps/AppsScreen.kt:365 | a filter that every element passes returns the list unchanged |
| Seqs.FilterIdempotent | app/src/main/java/tn/esprit/dam_android/screens/apps/AppsScreen.kt:365 | filtering twice by the same predicate is filtering once |
| FieldRules.EmailError | app/src/main/java/tn/esprit/dam_android/screens/login/LoginValidation.kt:16-23 | the email is accepted exactly when it is not blank and matches the pattern; a blank one is "Email is required", any other rejected one gets the screen's format message |
| FieldRules.PasswordError | app/src/main/java/tn/esprit/dam_android/screens/login/LoginValidation.kt:26-33 | the password is accepted exactly when it is not blank and has at least 6 UTF-16 units; a blank one is "required" before it is "too short" |
| FieldRules.ConfirmationError | app/src/main/java/tn/esprit/dam_android/screens/login/ResetPasswordScreen.kt:194-196 | the confirmation is accepted exactly when it equals the password; otherwise the message is "Passwords do not match" |
| User.Uid | app/src/main/java/tn/esprit/dam_android/models/user/UserModule.kt:34-35 | `uid` is `_id` when present, else `id`, else "" |
| User.UidOrigin | app/src/main/java/tn/esprit/dam_android/models/user/UserModule.kt:34-35 | the identifier comes from the record or is the empty fallback; it is empty only when `_id` is "", or when there is no `_id` and `id` is absent or "" (an empty `_id` hides a non-empty `id`) |
| Api.Classify | app/src/main/java/tn/esprit/dam_android/models/auth/repositories/AuthRepository.kt:101-127 | never Loading; Success exactly for a 2xx response with a body, carrying that body; a 2xx without a body, or a failure whose error body cannot be read, gives the fallback with the code; a readable error body gives its message with the code; one without a message makes the Error constructor throw, so the result is the null-parameter failure without a code; an exception gives its message, or the default, without a code |
| TokenManager.SaveToken | app/src/main/java/tn/esprit/dam_android/api/local/TokenManager.kt:25-29 | the access token reads back as saved and every other key is unchanged |
| TokenManager.SaveRefreshToken | app/src/main/java/tn/esprit/dam_android/api/local/TokenManager.kt:31-35 | the refresh token reads back as saved and every other key is unchanged |
| TokenManager.SaveUserInfo | app/src/main/java/tn/esprit/dam_android/api/local/TokenManager.kt:37-42 | the user id and email read back as saved and both tokens are untouched |
| TokenManager.ClearToken | app/src/main/java/tn/esprit/dam_android/api/local/TokenManager.kt:77-81 | after clearing, no key has a value |
| TokenManager.ReadsLastWrite | app/src/main/java/tn/esprit/dam_android/api/local/TokenManager.kt:44-75 | after any sequence of saves and clears, each key reads the value of its last write, or nothing when a clear came later |
| TokenManager.TokenReadsLastSave | app/src/main/java/tn/esprit/dam_android/api/local/TokenManager.kt:69-75 | the synchronous token getters return the last token saved after the last clear |
| TokenManager.GetTokenSync | app/src/main/java/tn/esprit/dam_android/api/local/TokenManager.kt:69-71 | the stored access token, or null exactly when none is stored |
| TokenManager.GetRefreshTokenSync | app/src/main/java/tn/esprit/dam_android/api/local/TokenManager.kt:73-75 | the stored refresh token, or null exactly when none is stored |
| AuthRepository.Register | app/src/main/java/tn/esprit/dam_android/models/auth/repositories/AuthRepository.kt:31-55 | one register request is sent and the store is untouched; Success exactly for a 2xx response with a body, carrying it; a failure with a readable error body gives its message and code; an unreadable error body, or a 2xx without a body, gives "Registration failed: " plus the reason phrase with the code; an error body without a message gives the null-parameter failure without a code; an exception gives its message or "Network error occurred" |
| AuthRepository.Login | app/src/main/java/tn/esprit/dam_android/models/auth/repositories/AuthRepository.kt:61-95 | one login request is sent; Success exactly for a 2xx response with a body, and then both tokens, the user's uid and the email are stored; any error leaves the store as it was; the error messages follow Register's cases with "Login failed: " plus the reason phrase as the fallback |
| AuthRepository.ForgotPassword | app/src/main/java/tn/esprit/dam_android/models/auth/repositories/AuthRepository.kt:101-127 | one request is sent and the store is untouched; Success exactly for a 2xx response with a body, carrying it; a failure with a readable error body gives its message and code; an unreadable error body, or a 2xx without a body, gives "Failed to send reset email" with the code; an error body without a message gives the null-parameter failure without a code; an exception gives its message or "Network error occurred" |
| AuthRepository.VerifyOtp | app/src/main/java/tn/esprit/dam_android/models/auth/repositories/AuthRepository.kt:133-159 | one request is sent and the store is untouched; Success exactly for a 2xx response with a body, carrying it; a failure with a readable error body gives its message and code; an unreadable error body, or a 2xx without a body, gives "OTP verification failed" with the code; an error body without a message gives the null-parameter failure without a code; an exception gives its message or "Network error occurred" |
| AuthRepository.ResetPassword | app/src/main/java/tn/esprit/dam_android/models/auth/repositories/AuthRepository.kt:165-195 | one request carrying email, reset token and new password is sent and the store is untouched; Success exactly for a 2xx response with a body, carrying it; a failure with a readable error body gives its message and code; an unreadable error body, or a 2xx without a body, gives "Password reset failed" with the code; an error body without a message gives the null-parameter failure without a code; an exception gives its message or "Network error occurred" |
| AuthRepository.PlainCallsKeepSession | app/src/main/java/tn/esprit/dam_android/models/auth/repositories/AuthRepository.kt:31-195 | any sequence of register, forgot-password, OTP and reset-password calls, whatever their answers, leaves the session exactly as it was, logged in or not, and sends one request per call, in order |
| AuthRepository.RefreshToken | app/src/main/java/tn/esprit/dam_android/models/auth/repositories/AuthRepository.kt:201-238 | without a refresh token no request goes out and the error is "No refresh token available"; success stores both new tokens; failure leaves the store as it was; the user info is never touched |
| AuthRepository.Logout | app/src/main/java/tn/esprit/dam_android/models/auth/repositories/AuthRepository.kt:243-246 | after logout nothing is stored and the user is not logged in |
| AuthRepository.IsLoggedIn | app/src/main/java/tn/esprit/dam_android/models/auth/repositories/AuthRepository.kt:251-255 | logged in exactly when a non-empty access token is stored |
| AuthRepository.GetCurrentUser | app/src/main/java/tn/esprit/dam_android/models/auth/repositories/AuthRepository.kt:261-290 | without a token no request goes out and the error is "No access token available"; with one, a single bearer request is sent |
| AuthRepository.RegisterDevice | app/src/main/java/tn/esprit/dam_android/models/auth/repositories/AuthRepository.kt:292-322 | without a token the error is "Not authenticated" and nothing is sent; with one, one bearer request is sent; a 2xx with a body is Success with that body; any other response reads "Registration failed: " plus the reason phrase, with the code, since the error body is not read; an exception without a message reads "Network error" |
| AuthRepository.GuardedCallsFollowSession | app/src/main/java/tn/esprit/dam_android/models/auth/repositories/AuthRepository.kt:261-322 | after a login that received a non-empty access token, the profile and device-registration calls each send one request bearing that token; after logout both fail with their no-token errors and send nothing |
| AuthRepository.GetDeviceStatus | app/src/main/java/tn/esprit/dam_android/models/auth/repositories/AuthRepository.kt:328-374 | without a token nothing is sent; the first request always carries the stored token; any answer but 401 is the result with no further request |
| AuthRepository.CountRefreshesConcat | app/src/main/java/tn/esprit/dam_android/models/auth/repositories/AuthRepository.kt:344-370 | the refresh count of a trace adds up over its parts |
| AuthRepository.DeviceStatusOnUnauthorized | app/src/main/java/tn/esprit/dam_android/models/auth/repositories/AuthRepository.kt:344-370 | on a 401 at most three requests go out, with one refresh when a refresh token is stored and none otherwise; a failed refresh ends in "Unauthorized - please login again" with code 401 and no retry; an empty refreshed token ends in "Token refresh failed" with code 401 |
| AuthRepository.DeviceStatusRetryIsFinal | app/src/main/java/tn/esprit/dam_android/models/auth/repositories/AuthRepository.kt:355-366 | after a successful refresh one retry is sent with the new token, and its answer is final even when it is another 401 |
| AuthRepository.DeviceStatusKeepsUserInfo | app/src/main/java/tn/esprit/dam_android/models/auth/repositories/AuthRepository.kt:328-374 | checking the device status never changes the stored user id or email |
| AuthRepository.LoginThenLoggedIn | app/src/main/java/tn/esprit/dam_android/models/auth/repositories/AuthRepository.kt:61-95 | after a successful login the user is logged in exactly when the token received is not empty |
| AuthRepository.LogoutAfterLogin | app/src/main/java/tn/esprit/dam_android/models/auth/repositories/AuthRepository.kt:243-246 | logging out after any login leaves no token, refresh token or user id |
| LoginValidation.ValidateLoginForm | app/src/main/java/tn/esprit/dam_android/screens/login/LoginValidation.kt:11-42 | the form is valid exactly when neither field has an error, that is, exactly when the email is non-blank and matches and the password is non-blank and at least 6 units long |
| LoginValidation.WhitespacePasswordIsRequired | app/src/main/java/tn/esprit/dam_android/screens/login/LoginValidation.kt:26-33 | a password made only of whitespace, however long, is "Password is required" |
| LoginScreen.OnEmailChange | app/src/main/java/tn/esprit/dam_android/screens/login/LoginScreen.kt:77-80 | the email field keeps the trimmed input and drops its error; nothing else changes |
| LoginScreen.OnPasswordChange | app/src/main/java/tn/esprit/dam_android/screens/login/LoginScreen.kt:94-97 | the password field keeps the input verbatim and drops its error; nothing else changes |
| LoginScreen.SignIn | app/src/main/java/tn/esprit/dam_android/screens/login/LoginScreen.kt:129-152 | a login request goes out exactly when both fields pass; it carries the stored email and password, and loading starts |
| LoginScreen.OnLoginResult | app/src/main/java/tn/esprit/dam_android/screens/login/LoginScreen.kt:153-166 | every answer ends loading; only Success navigates; Error shows its message |
| LoginScreen.AgreesWithValidateLoginForm | app/src/main/java/tn/esprit/dam_android/screens/login/LoginScreen.kt:129-152 | the screen's own checks accept exactly the forms the shared validator accepts |
| LoginScreen.SignInIgnoresStaleMessages | app/src/main/java/tn/esprit/dam_android/screens/login/LoginScreen.kt:129-135 | the outcome of Sign In does not depend on any message left from before |
| LoginScreen.StoredEmailAlwaysTrimmed | app/src/main/java/tn/esprit/dam_android/screens/login/LoginScreen.kt:77-80 | whatever the user does from the initial screen, the stored email is trimmed |
| LoginScreen.RunKeepsEmailTrimmed | app/src/main/java/tn/esprit/dam_android/screens/login/LoginScreen.kt:77-80 | every sequence of events keeps a trimmed email trimmed |
| LoginViewModel.OnEmailChange | app/src/main/java/tn/esprit/dam_android/screens/login/LoginViewModule.kt:24-26 | the email is set and its error cleared; nothing else changes |
| LoginViewModel.OnPasswordChange | app/src/main/java/tn/esprit/dam_android/screens/login/LoginViewModule.kt:28-30 | the password is set and its error cleared; nothing else changes |
| LoginViewModel.TogglePasswordVisibility | app/src/main/java/tn/esprit/dam_android/screens/login/LoginViewModule.kt:32-34 | only the visibility flag flips |
| LoginViewModel.ToggleTwice | app/src/main/java/tn/esprit/dam_android/screens/login/LoginViewModule.kt:32-34 | toggling twice restores the state |
| LoginViewModel.Login | app/src/main/java/tn/esprit/dam_android/screens/login/LoginViewModule.kt:36-68 | the validator's messages are stored; a request goes out and loading starts exactly when the form is valid |
| LoginViewModel.OnLoginResult | app/src/main/java/tn/esprit/dam_android/screens/login/LoginViewModule.kt:44-66 | every answer ends loading; only Success calls `onSuccess`; an Error stores no message |
| LoginViewModel.HandleKeepsMessagesCurrent | app/src/main/java/tn/esprit/dam_android/screens/login/LoginViewModule.kt:24-68 | each event keeps every shown field message matching the validator's verdict on the current field |
| LoginViewModel.ValidLoginShowsNoStaleMessage | app/src/main/java/tn/esprit/dam_android/screens/login/LoginViewModule.kt:36-68 | from the initial state, a field message shown is always the validator's message for that field as it now is |
| LoginViewModel.RunKeepsMessagesCurrent | app/src/main/java/tn/esprit/dam_android/screens/login/LoginViewModule.kt:24-68 | any sequence of events keeps the messages current |
| SignUpScreen.MatchPhonePattern | app/src/main/java/tn/esprit/dam_android/screens/signup/SignUpScreen.kt:282 | a character-by-character matcher accepts exactly the phones of the pattern: an optional '+', then 2 to 15 ASCII digits, the first not '0' |
| SignUpScreen.PhoneError | app/src/main/java/tn/esprit/dam_android/screens/signup/SignUpScreen.kt:282-284 | a blank phone is accepted; any other is "Invalid phone" exactly when it does not match the pattern |
| SignUpScreen.Validate | app/src/main/java/tn/esprit/dam_android/screens/signup/SignUpScreen.kt:258-290 | every check runs: email, password, confirmation, phone and terms each get their own message, and name and surname never do |
| SignUpScreen.CreateAccount | app/src/main/java/tn/esprit/dam_android/screens/signup/SignUpScreen.kt:258-303 | the register request goes out exactly when no check failed; it carries the form's fields and loading starts |
| SignUpScreen.OnRegisterResult | app/src/main/java/tn/esprit/dam_android/screens/signup/SignUpScreen.kt:304-314 | Success and Error end loading; only Success moves on; Error shows its message |
| SignUpScreen.ConfirmationIndependentOfPassword | app/src/main/java/tn/esprit/dam_android/screens/signup/SignUpScreen.kt:272-280 | the confirmation is compared whatever the password's verdict, so a short password can still be confirmed |
| SignUpScreen.PhoneExamples | app/src/main/java/tn/esprit/dam_android/screens/signup/SignUpScreen.kt:282 | the pattern's edges: "+12" and 15 digits are accepted; "1", "+", "+0123" and 16 digits are not |
| ForgotPasswordScreen.OnEmailChange | app/src/main/java/tn/esprit/dam_android/screens/login/ForgotPasswordScreen.kt:105-108 | the field keeps the trimmed input and drops its error |
| ForgotPasswordScreen.SendResetCode | app/src/main/java/tn/esprit/dam_android/screens/login/ForgotPasswordScreen.kt:122-136 | the first failed check stops: blank gives "Email is required", a bad format gives "Invalid email format"; otherwise the stored email is sent, recorded as in flight, and loading starts |
| ForgotPasswordScreen.OnForgotResult | app/src/main/java/tn/esprit/dam_android/screens/login/ForgotPasswordScreen.kt:137-150 | every answer ends loading; Success starts the confirmation for the email in flight without navigating yet; Error shows its message; the field is not touched |
| ForgotPasswordScreen.CloseConfirmationAsWritten | app/src/main/java/tn/esprit/dam_android/screens/login/ForgotPasswordScreen.kt:140-141 | as written, when the snackbar closes `onSendSuccess` gets whatever the field holds at that moment |
| ForgotPasswordScreen.CloseConfirmation | app/src/main/java/tn/esprit/dam_android/screens/login/ForgotPasswordScreen.kt:140-141 | as intended, `onSendSuccess` gets the email the reset code was sent to |
| ForgotPasswordScreen.React | app/src/main/java/tn/esprit/dam_android/screens/login/ForgotPasswordScreen.kt:103-156 | an edit only updates the field; a press while loading and an answer while no request is in flight change nothing and send nothing |
| ForgotPasswordScreen.SendSuccessPassesSubmittedEmail | app/src/main/java/tn/esprit/dam_android/screens/login/ForgotPasswordScreen.kt:134-141 | as written, with no edit between the press and the snackbar closing, the email handed to the OTP screen is the one validated and sent |
| ForgotPasswordScreen.EditDuringConfirmationAsWritten | app/src/main/java/tn/esprit/dam_android/screens/login/ForgotPasswordScreen.kt:105-141 | as written, an edit while the snackbar shows makes the OTP screen open for the edited address, to which no code was sent |
| ForgotPasswordScreen.HandleKeepsAccounted | app/src/main/java/tn/esprit/dam_android/screens/login/ForgotPasswordScreen.kt:103-156 | with the intended close, each event keeps the request in flight, the confirmation pending and every email handed on among the emails already sent |
| ForgotPasswordScreen.RunKeepsAccounted | app/src/main/java/tn/esprit/dam_android/screens/login/ForgotPasswordScreen.kt:103-156 | any sequence of events keeps that accounting |
| ForgotPasswordScreen.HandedOnEmailWasSent | app/src/main/java/tn/esprit/dam_android/screens/login/ForgotPasswordScreen.kt:134-141 | with the intended close, from the initial screen, every email handed to the OTP screen is one a reset code was sent to earlier |
| OtpScreen.OnOtpChange | app/src/main/java/tn/esprit/dam_android/screens/login/OTPScreen.kt:102-107 | an input longer than 6 UTF-16 units is ignored; any other replaces the code and clears its error |
| OtpScreen.Verify | app/src/main/java/tn/esprit/dam_android/screens/login/OTPScreen.kt:120-131 | a request goes out exactly when the code is 6 units long, and its characters are not checked; the code sent is recorded as in flight; otherwise the error is "OTP must be 6 digits" |
| OtpScreen.OnVerifyResult | app/src/main/java/tn/esprit/dam_android/screens/login/OTPScreen.kt:132-149 | every answer ends loading; a valid verdict starts the confirmation for the code in flight without navigating yet; an invalid one shows "Invalid OTP code"; an Error shows its message |
| OtpScreen.CloseConfirmationAsWritten | app/src/main/java/tn/esprit/dam_android/screens/login/OTPScreen.kt:136-137 | as written, when the snackbar closes `onVerifySuccess` gets whatever the field holds at that moment |
| OtpScreen.CloseConfirmation | app/src/main/java/tn/esprit/dam_android/screens/login/OTPScreen.kt:136-137 | as intended, `onVerifySuccess` gets the code the server found valid |
| OtpScreen.React | app/src/main/java/tn/esprit/dam_android/screens/login/OTPScreen.kt:100-155 | an edit only goes through the length gate; a press while loading and an answer while no request is in flight change nothing and send nothing |
| OtpScreen.OtpNeverTooLong | app/src/main/java/tn/esprit/dam_android/screens/login/OTPScreen.kt:102-107 | with either close, no sequence of events makes the stored code longer than 6 units, nor hands on a longer token |
| OtpScreen.ReactKeepsShort | app/src/main/java/tn/esprit/dam_android/screens/login/OTPScreen.kt:102-137 | each event keeps the stored code, the code in flight, the one confirming and every token handed on within 6 units |
| OtpScreen.OtpFromInitialNeverTooLong | app/src/main/java/tn/esprit/dam_android/screens/login/OTPScreen.kt:38-107 | as written, from the empty initial code, the code never exceeds 6 units and so no reset token handed on does; a shorter one can be |
| OtpScreen.VerifySuccessPassesCheckedCode | app/src/main/java/tn/esprit/dam_android/screens/login/OTPScreen.kt:120-137 | as written, with no edit between the press and the snackbar closing, the reset token handed on is the 6-unit code the server found valid |
| OtpScreen.EditBeforeConfirmationAsWritten | app/src/main/java/tn/esprit/dam_android/screens/login/OTPScreen.kt:102-137 | as written, typing "12" while the snackbar shows hands "12" on as the reset token, a 2-unit code no server check has seen |
| OtpScreen.HandleKeepsAccounted | app/src/main/java/tn/esprit/dam_android/screens/login/OTPScreen.kt:100-155 | with the intended close, each event keeps the code in flight, the code confirming and every token handed on among the 6-unit codes already checked |
| OtpScreen.RunKeepsAccounted | app/src/main/java/tn/esprit/dam_android/screens/login/OTPScreen.kt:100-155 | any sequence of events keeps that accounting |
| OtpScreen.HandedOnTokenWasChecked | app/src/main/java/tn/esprit/dam_android/screens/login/OTPScreen.kt:132-137 | with the intended close, from the initial screen, every reset token handed on is a 6-unit code the server was asked about earlier |
| ResetPasswordScreen.SubmitReset | app/src/main/java/tn/esprit/dam_android/screens/login/ResetPasswordScreen.kt:181-200 | both checks run; the request goes out exactly when neither failed, carrying the route's email and token unchanged |
| ResetPasswordScreen.OnResetResult | app/src/main/java/tn/esprit/dam_android/screens/login/ResetPasswordScreen.kt:202-216 | every answer ends loading and touches nothing else but the message; only Success calls `onResetSuccess`; Error shows its message; the password, the confirmation and the field errors are kept |
| ResetPasswordScreen.ResetAcceptance | app/src/main/java/tn/esprit/dam_android/screens/login/ResetPasswordScreen.kt:186-198 | a request is sent exactly for a non-blank password of at least 6 units that is confirmed exactly |
| UpdateProfileScreen.OnProfileFetched | app/src/main/java/tn/esprit/dam_android/screens/profile/UpdateProfileScreen.kt:54-73 | fetching ends on every answer; Success fills id, names, phone and email, with missing values as ""; Error shows its message; field errors are kept |
| UpdateProfileScreen.OnFieldChange | app/src/main/java/tn/esprit/dam_android/screens/profile/UpdateProfileScreen.kt:177-211 | the edited field keeps the trimmed input and drops its own error and the screen message |
| UpdateProfileScreen.PressUpdate | app/src/main/java/tn/esprit/dam_android/screens/profile/UpdateProfileScreen.kt:225-249 | a disabled button does nothing; blank fields get their error and other errors are not cleared; the update goes out exactly when no field is blank and the user id is known |
| UpdateProfileScreen.OnUpdateResult | app/src/main/java/tn/esprit/dam_android/screens/profile/UpdateProfileScreen.kt:255-268 | loading always ends; Success leaves the screen; Error shows its message |
| UpdateProfileScreen.HandleKeepsErrorsCurrent | app/src/main/java/tn/esprit/dam_android/screens/profile/UpdateProfileScreen.kt:177-243 | each event keeps every field error describing a blank field, and keeps errors absent while fetching |
| UpdateProfileScreen.RunKeepsErrorsCurrent | app/src/main/java/tn/esprit/dam_android/screens/profile/UpdateProfileScreen.kt:177-243 | any sequence of events keeps the errors current |
| UpdateProfileScreen.ShownErrorsAreCurrent | app/src/main/java/tn/esprit/dam_android/screens/profile/UpdateProfileScreen.kt:225-243 | although Update never clears an error, from entry an error shown under a field always means that field is blank now |
| RegisterDeviceScreen.DeviceIdentifier | app/src/main/java/tn/esprit/dam_android/screens/settings/RegisterDeviceScreen.kt:63-68 | the identifier is `ANDROID_ID`, or "unknown" when there is none |
| RegisterDeviceScreen.CacheFallback | app/src/main/java/tn/esprit/dam_android/screens/settings/RegisterDeviceScreen.kt:94-100 | the device is shown registered afterwards exactly when it already was or a non-empty identifier is cached; nothing else changes |
| RegisterDeviceScreen.CheckStatus | app/src/main/java/tn/esprit/dam_android/screens/settings/RegisterDeviceScreen.kt:71-109 | the server is asked only with a token and a known identifier, and its verdict decides; without a verdict the cache decides; the cache and the registered device id change only on a positive verdict with a device; the check always ends |
| RegisterDeviceScreen.PressRegister | app/src/main/java/tn/esprit/dam_android/screens/settings/RegisterDeviceScreen.kt:268-275 | a disabled button does nothing; a registered device moves on with no request; otherwise the message clears and loading starts |
| RegisterDeviceScreen.ResponseFailure | app/src/main/java/tn/esprit/dam_android/screens/settings/RegisterDeviceScreen.kt:318-327 | a failed response gives the error body's message; an unreadable body, or a 2xx without a body, gives "Registration failed: HTTP <code>"; a parsed body without a message gives null, shown as "Failed: null" |
| RegisterDeviceScreen.RegisterLaunched | app/src/main/java/tn/esprit/dam_android/screens/settings/RegisterDeviceScreen.kt:276-334 | without a token: "You must be logged in" and no request; otherwise the device is posted; only a 2xx with a body moves on and caches the returned identifier, or ours; other outcomes show "Failed: " and the reason; loading always ends |
| RegisterDeviceScreen.RegisterMessages | app/src/main/java/tn/esprit/dam_android/screens/settings/RegisterDeviceScreen.kt:280-331 | every message a registration can leave is the login notice or starts with "Failed: " |
| RegisterDeviceScreen.RegistrationRemembered | app/src/main/java/tn/esprit/dam_android/screens/settings/RegisterDeviceScreen.kt:94-100 | after a successful registration with a non-empty identifier, a later entry check with no server verdict shows the device as registered |
| RegisterDeviceScreen.EntryDecision | app/src/main/java/tn/esprit/dam_android/screens/settings/RegisterDeviceScreen.kt:71-109 | from the entry state, the device is shown registered exactly when the server says so, or, with no verdict, when an identifier is cached; the button is then enabled |
| AppsScreen.InstalledApps | app/src/main/java/tn/esprit/dam_android/screens/apps/AppsScreen.kt:569-577 | the app's own package is dropped, and every other installed package is kept as often as it was listed |
| AppsScreen.InstalledAppsConcat | app/src/main/java/tn/esprit/dam_android/screens/apps/AppsScreen.kt:569-577 | listing two parts of the installed list is concatenating their listings, so the order is kept |
| AppsScreen.SimulateRiskAnalysis | app/src/main/java/tn/esprit/dam_android/screens/apps/AppsScreen.kt:583-590 | malicious exactly when the name contains "malware" in any case; suspicious exactly when it does not but contains "suspicious" or the draw hits |
| AppsScreen.GenerateIssues | app/src/main/java/tn/esprit/dam_android/screens/apps/AppsScreen.kt:592-598 | a malicious app lists "Known malware", "Data theft", "Root exploit"; a suspicious one "Excessive permissions", "Unusual network"; only a safe one lists none |
| AppsScreen.ScanEntry | app/src/main/java/tn/esprit/dam_android/screens/apps/AppsScreen.kt:151-158 | a row shows the label, or the package name when there is none; Uninstall is offered exactly when the row lists issues |
| AppsScreen.ScanEntries | app/src/main/java/tn/esprit/dam_android/screens/apps/AppsScreen.kt:151-171 | one row per scanned package, in order: its label or else its package name, the heuristic's risk level for its own draw, and that level's issues; a row is malicious exactly when its name contains "malware"; Uninstall is offered exactly on rows with issues |
| AppsScreen.StartScan | app/src/main/java/tn/esprit/dam_android/screens/apps/AppsScreen.kt:68-75 | scanning starts and the previous result and summary are cleared |
| AppsScreen.FinishScan | app/src/main/java/tn/esprit/dam_android/screens/apps/AppsScreen.kt:104-175 | scanning always ends; there is no result exactly when logged in without a cached device identifier; an upload goes out exactly with token and identifier; the summary is set exactly on a 2xx with a body |
| AppsScreen.ResultNeverListsOwnApp | app/src/main/java/tn/esprit/dam_android/screens/apps/AppsScreen.kt:569-577 | no scan result ever lists the app itself |
| AppsScreen.Remediate | app/src/main/java/tn/esprit/dam_android/screens/apps/AppsScreen.kt:362-366 | every row of the remediated package leaves the list, every other row stays as often as it was there, and the detail sheet closes when remediation came from it |
| AppsScreen.RemediateConcat | app/src/main/java/tn/esprit/dam_android/screens/apps/AppsScreen.kt:362-366 | remediating a list made of two parts gives the two remediated parts in turn, so the order of the rows kept is unchanged |
| AppsScreen.OffersUninstall | app/src/main/java/tn/esprit/dam_android/screens/apps/AppsScreen.kt:495-505 | Uninstall is offered exactly for a suspicious or malicious app |
| AppsScreen.RemediateIdempotent | app/src/main/java/tn/esprit/dam_android/screens/apps/AppsScreen.kt:405-410 | remediating the same app twice changes nothing the second time |
| AppsScreen.RemediateAbsentKeepsList | app/src/main/java/tn/esprit/dam_android/screens/apps/AppsScreen.kt:365 | remediating an app no longer listed leaves the list as it is |
| AppsScreen.MalwareBeatsSuspicious | app/src/main/java/tn/esprit/dam_android/screens/apps/AppsScreen.kt:584-586 | a name containing "malware" is malicious with three issues whatever else it contains and whatever the draw |
| AppsScreen.UpperCaseMalwareFound | app/src/main/java/tn/esprit/dam_android/screens/apps/AppsScreen.kt:585 | the match ignores case: any name containing "MALWARE" is malicious |
| NavGraph.Route | app/src/main/java/tn/esprit/dam_android/navigation/Screen.kt:5-19 | every destination of the graph has a non-empty route |
| NavGraph.NavigateString | app/src/main/java/tn/esprit/dam_android/navigation/NavGraph.kt:100-120 | the OTP screen is opened with "otp_verification?email=" and the email, the reset screen with "reset_password?email=", the email, "&resetToken=" and the token; every other destination with its bare route |
| NavGraph.LastIndexOf | app/src/main/java/tn/esprit/dam_android/navigation/NavGraph.kt:68 | the topmost back-stack entry of a destination, or -1 exactly when none is on the stack |
| NavGraph.Popped | app/src/main/java/tn/esprit/dam_android/navigation/NavGraph.kt:68 | `popUpTo` leaves a prefix: nothing goes when the route is absent, everything from its topmost entry up goes when inclusive, and `popUpTo(0)` empties the stack |
| NavGraph.Navigate | app/src/main/java/tn/esprit/dam_android/navigation/NavGraph.kt:67-69 | `navigate` pops as asked, then puts the new entry on top |
| NavGraph.Pop | app/src/main/java/tn/esprit/dam_android/navigation/NavGraph.kt:86 | `popBackStack()` removes the top entry |
| NavGraph.StartDestination | app/src/main/java/tn/esprit/dam_android/navigation/NavGraph.kt:42-49 | Home exactly when a non-empty token is stored, Login exactly otherwise |
| NavGraph.Decide | app/src/main/java/tn/esprit/dam_android/navigation/NavGraph.kt:51-62 | once the token is read, the graph starts with one entry, the start destination |
| NavGraph.SignUpSucceededCorrected | app/src/main/java/tn/esprit/dam_android/navigation/NavGraph.kt:80-85 | sign-up success returns to a Login entry on top, and pushes one when no Login is below |
| NavGraph.Reaction | app/src/main/java/tn/esprit/dam_android/navigation/NavGraph.kt:64-170 | no callback pushes Login without first popping through the topmost Login or clearing the whole stack, once sign-up success is corrected |
| NavGraph.Handle | app/src/main/java/tn/esprit/dam_android/navigation/NavGraph.kt:64-170 | with the corrected sign-up, a callback changes the stack only while its own screen is on top; the graph as written is HandleAsWritten |
| NavGraph.HandleAsWritten | app/src/main/java/tn/esprit/dam_android/navigation/NavGraph.kt:80-85 | as written the graph differs only in sign-up success, which pops up to and including the sign-up entry and then pushes Login |
| NavGraph.SignUpThenLoginKeepsLoginAsWritten | app/src/main/java/tn/esprit/dam_android/navigation/NavGraph.kt:66-85 | as written, sign up and then log in from Login leaves the stack Login, Home |
| NavGraph.PopThroughLogin | app/src/main/java/tn/esprit/dam_android/navigation/NavGraph.kt:68 | popping through the topmost Login of a stack with at most one Login leaves none |
| NavGraph.HandleKeepsOneLogin | app/src/main/java/tn/esprit/dam_android/navigation/NavGraph.kt:64-170 | with the corrected sign-up, no callback ever makes the stack hold two Login entries |
| NavGraph.RunKeepsOneLogin | app/src/main/java/tn/esprit/dam_android/navigation/NavGraph.kt:64-170 | any sequence of callbacks keeps at most one Login entry |
| NavGraph.LoginLeavesNoLoginBehind | app/src/main/java/tn/esprit/dam_android/navigation/NavGraph.kt:66-70 | whatever happened since launch, after login succeeds Home is on top and no Login entry is left below it |
| NavGraph.ResetAndLogoutClearTheStack | app/src/main/java/tn/esprit/dam_android/navigation/NavGraph.kt:143-168 | password reset and logout both leave exactly one entry, Login |
| NavGraph.ForgotPasswordFlow | app/src/main/java/tn/esprit/dam_android/navigation/NavGraph.kt:97-124 | from Login, the forgotten-password flow stacks Forgot, OTP with the email, then Reset with the same email and the token, navigating to the strings that carry them |

## Left out

- I/O is not modelled: DataStore, shared preferences, Retrofit, Gson, the
  package manager and `Settings.Secure`. Each appears as a value or a
  parameter, as described above.
- Coroutines, `runBlocking`, `Flow` and recomposition are not modelled. Each
  handler is one atomic step, and a coroutine's effects apply when its answer
  arrives.
- Logging is not modelled. A snackbar is modelled only where code runs after
  it: the Forgot Password and OTP screens hand on their field's value once
  the snackbar closes, which the `SnackbarClosed` event stands for. Elsewhere
  the snackbar only delays what follows, and that delay is not modelled.
- ForgotPasswordScreen.React: only one pending confirmation is modelled. A
  second successful send while the first snackbar still shows replaces it,
  where the source would queue both snackbars and call `onSendSuccess` twice.
- OtpScreen.React: only one pending confirmation is modelled, as for the
  Forgot Password screen.
- OtpScreen.Verify: the request is taken to carry the code as it is at the
  press. The coroutine reads `otp` when it starts, and an edit before that is
  not modelled.
- The scan progress fraction and the "Scanning N apps" text are not modelled,
  because they use floating point and only feed the display.
- The version code and version name sent with each scanned app are not
  modelled, because they are package-manager lookups. `UploadCall` lists the
  package names only.
- The local risk pass inside the scan loop is not modelled. Its results are
  discarded, and each list is rebuilt with fresh draws, which `roll` stands
  for.
- The uninstall intent is not modelled: remediation models only its effect
  on the list.
- The email pattern `Patterns.EMAIL_ADDRESS` is not modelled. It is the
  opaque predicate `isValidEmail`.
- `Char.isWhitespace` is an enumeration of the JVM whitespace code points,
  not the Unicode database.
- Case-insensitive matching covers only ASCII-letter needles, which are the
  only ones the app uses.
- `AuthRepository.getUserProfile`, `updateProfile` and
  `checkDeviceRegistration`, and `SharedPrefs.getDeviceIdentifier` and
  `saveDeviceIdentifier`, are called but not defined in
  app/src/main/java/tn/esprit/dam_android/models/auth/repositories/AuthRepository.kt
  and app/src/main/java/tn/esprit/dam_android/utils/SharedPrefs.kt. Their
  answers are `ApiResult` values or the `cache` parameter.
- `LoginUiState` (types/LoginUiState.kt) is not part of this model. Its
  fields are inferred from their uses in LoginValidation.kt and
  LoginViewModule.kt.
- `ScanRequest` and `ScanResponse` are not part of this model. The response
  is reduced to the three fields the screen reads.
- The Forgot Password, OTP, Reset Password, Sign Up and Login buttons are disabled
  while loading, and the text fields never are. The Forgot Password and OTP
  event handlers ignore a press while loading; the other press functions
  model a press on an enabled button.
- AuthRepository.Login: a 2xx body whose `refreshToken`, `user` or
  `user.email` is null is not modelled; the fields are taken as present. In
  the source Gson leaves such a field null, the save after the access token
  throws, and the store keeps the new access token alone.
- AuthRepository.RefreshToken: the same holds for a refresh answer with a
  null `refreshToken`.
- Api.Classify: the null-parameter failure text is the one Kotlin's
  parameter check produces for `ApiResult.Error`; its exact wording depends
  on the compiler version.
- NavGraph.Handle: route arguments are taken as passed to `navigate`.
  Query-string encoding is not modelled, so an email containing `&` or `=`
  is not split the way Navigation would split it.
- NavGraph.Handle: the main screens other than Home navigate on their own
  (HomeScreen, SettingsScreen). Only Home's three pushes and Settings'
  logout are modelled.
- NavGraph.Handle: routes declared in Screen.kt without a destination in this
  graph (device_registration, update_profile, privacy_policy and
  terms_of_service) are not modelled as destinations.
- NavGraph.Popped: `popUpTo(0)` is modelled as popping the whole stack,
  since the root graph has id 0.

## Findings

| source | as written | input that shows it | evidently intended | confidence | as-written member | corrected member |
|---|---|---|---|---|---|---|
| app/src/main/java/tn/esprit/dam_android/navigation/NavGraph.kt:80-85 | sign-up success navigates to Login popping only up to and including SignUp, which pushes a second Login over the first; the later login success pops only the topmost Login | open Sign Up from Login, sign up, then log in: the stack is Login, Home, so Back from Home returns to the login screen | "Go back to Login after registration": one Login entry, so a later login leaves only Home | not executed | NavGraph.SignUpThenLoginKeepsLoginAsWritten | NavGraph.LoginLeavesNoLoginBehind |
| app/src/main/java/tn/esprit/dam_android/screens/login/ForgotPasswordScreen.kt:139-141 | after a successful send, loading ends, the snackbar is awaited, and only then is `onSendSuccess` called with the `email` state, which the user can edit meanwhile | send a code to a@b.c, then type x@y.z while "Reset code sent" shows: the OTP screen opens for x@y.z, to which no code was sent | hand on the email the code was sent to | not executed | ForgotPasswordScreen.EditDuringConfirmationAsWritten | ForgotPasswordScreen.HandedOnEmailWasSent |
| app/src/main/java/tn/esprit/dam_android/screens/login/OTPScreen.kt:134-137 | after a valid verdict, loading ends, the snackbar is awaited, and only then is `onVerifySuccess` called with the `otp` state, which the user can edit meanwhile | verify a valid 6-digit code, then type "12" while "OTP verified" shows: the reset screen gets "12" as its reset token | hand on the code the server found valid | not executed | OtpScreen.EditBeforeConfirmationAsWritten | OtpScreen.HandedOnTokenWasChecked |

=== FILE: api.dfy ===
/**
 * `ApiResult` and the one shape every repository call shares: turning what
 * Retrofit handed back (a response, or an exception) into a result.
 */
module Api {
  import opened Wrappers

  /** The repository's result type. `Loading` exists in the type but no call returns it. */
  datatype ApiResult<+T> = Success(data: T) | Error(message: string, code: Option<int>) | Loading

  /**
   * What Gson makes of an error body read as `ErrorResponse`: nothing usable
   * (no body, an empty one, or one that does not parse, all of which end in
   * the fallback message), an object whose `message` is missing or null, or
   * an object with a message.
   */
  datatype ErrorBody = Unreadable | NoMessage | Message(text: string)

  /**
   * What one HTTP call produced. `errorBody` is the error body as Gson reads
   * it; `statusMessage` is the HTTP reason phrase. `Thrown` is an exception
   * before any response, with its message.
   */
  datatype Http<+T> =
    | Response(code: int, body: Option<T>, errorBody: ErrorBody, statusMessage: string)
    | Thrown(message: Option<string>)

  /** OkHttp's `isSuccessful`: a 2xx code. */
  predicate IsSuccessful(code: int) {
    200 <= code < 300
  }

  /** The message used when the error body cannot be parsed: fixed, or a prefix plus the reason phrase. */
  datatype Fallback = Fixed(text: string) | WithStatus(prefix: string)

  function FallbackText(f: Fallback, statusMessage: string): string {
    match f
    case Fixed(t) => t
    case WithStatus(p) => p + statusMessage
  }

  const NetworkErrorOccurred := "Network error occurred"

  /**
   * The message of the exception Kotlin throws when `ApiResult.Error` is
   * built with a null message, the exact wording depending on the compiler.
   */
  const NullMessageFailure := "Parameter specified as non-null is null: method tn.esprit.dam_android.models.auth.repositories.ApiResult$Error.<init>, parameter message"

  /**
   * A 2xx response with a body is Success. Any other response is Error with
   * its code and the error body's message, or the fallback when the body is
   * unreadable (a 2xx response has no error body at all); an error body
   * without a message makes the Error constructor throw, and the outer catch
   * reports that exception with no code. An exception is Error with no code
   * and its message, or `onException` when it has none.
   */
  function Classify<T>(h: Http<T>, fallback: Fallback, onException: string): (r: ApiResult<T>)
    ensures !r.Loading?
    ensures r.Success? <==> h.Response? && IsSuccessful(h.code) && h.body.Some?
    ensures r.Success? ==> r.data == h.body.value
    ensures h.Response? && IsSuccessful(h.code) && h.body.None? ==>
              r == Error(FallbackText(fallback, h.statusMessage), Some(h.code))
    ensures h.Response? && !IsSuccessful(h.code) && h.errorBody.Unreadable? ==>
              r == Error(FallbackText(fallback, h.statusMessage), Some(h.code))
    ensures h.Response? && !IsSuccessful(h.code) && h.errorBody.Message? ==> r == Error(h.errorBody.text, Some(h.code))
    ensures h.Response? && !IsSuccessful(h.code) && h.errorBody.NoMessage? ==> r == Error(NullMessageFailure, None)
    ensures h.Thrown? ==> r == Error(h.message.GetOr(onException), None)
    ensures r.Error? ==> (r.code.Some? <==> h.Response? && !(!IsSuccessful(h.code) && h.errorBody.NoMessage?))
  {
    match h
    case Thrown(m) => Error(m.GetOr(onException), None)
    case Response(code, body, errorBody, status) =>
      if IsSuccessful(code) then
        if body.Some? then Success(body.value) else Error(FallbackText(fallback, status), Some(code))
      else
        match errorBody
        case Unreadable => Error(FallbackText(fallback, status), Some(code))
        case Message(m) => Error(m, Some(code))
        case NoMessage => Error(NullMessageFailure, None)
  }
}

=== FILE: apps_screen.dfy ===
/**
 * The Installed Apps screen: a local risk heuristic per package, an optional
 * upload of the scan, and remediation, which drops an uninstalled package
 * from the list.
 */
module AppsScreen {
  import opened Wrappers
  import opened Text
  import opened Seqs
  import opened Api

  datatype RiskLevel = Safe | Suspicious | Malicious

  datatype ScannedApp = ScannedApp(packageName: string, appName: string, riskLevel: RiskLevel, issues: seq<string>)

  /** The app's own package, never scanned. */
  const OwnPackage := "tn.esprit.dam_android"

  predicate NotOwn(packageName: string) {
    packageName != OwnPackage
  }

  /** Every installed application except this one, in the package manager's order. */
  function InstalledApps(all: seq<string>): (r: seq<string>)
    ensures OwnPackage !in r
    ensures forall i :: 0 <= i < |all| && all[i] != OwnPackage ==> all[i] in r
    ensures forall i :: 0 <= i < |r| ==> r[i] in all
    ensures forall p :: multiset(r)[p] == if p == OwnPackage then 0 else multiset(all)[p]
  {
    FilterCounts(all, NotOwn);
    Filter(all, NotOwn)
  }

  /** The list keeps the package manager's order: listing two runs of packages lists each in turn. */
  lemma InstalledAppsConcat(a: seq<string>, b: seq<string>)
    ensures InstalledApps(a + b) == InstalledApps(a) + InstalledApps(b)
  {
    FilterConcat(a, b, NotOwn);
  }

  /**
   * The heuristic: a name containing "malware" in any case is malicious, else
   * one containing "suspicious" is suspicious, else one draw in twenty (`roll`,
   * standing for `nextInt(20) == 0`) makes it suspicious.
   */
  function SimulateRiskAnalysis(packageName: string, roll: bool): (r: RiskLevel)
    ensures r == Malicious <==> ContainsIgnoreCase(packageName, "malware")
    ensures r == Suspicious <==>
              !ContainsIgnoreCase(packageName, "malware") && (ContainsIgnoreCase(packageName, "suspicious") || roll)
  {
    if ContainsIgnoreCase(packageName, "malware") then Malicious
    else if ContainsIgnoreCase(packageName, "suspicious") then Suspicious
    else if roll then Suspicious
    else Safe
  }

  /** The canned issues shown for each level; a safe app has none. */
  function GenerateIssues(risk: RiskLevel): (r: seq<string>)
    ensures r == [] <==> risk == Safe
    ensures risk == Malicious ==> r == ["Known malware", "Data theft", "Root exploit"]
    ensures risk == Suspicious ==> r == ["Excessive permissions", "Unusual network"]
  {
    match risk
    case Malicious => ["Known malware", "Data theft", "Root exploit"]
    case Suspicious => ["Excessive permissions", "Unusual network"]
    case Safe => []
  }

  /** The Uninstall action, on the card and in the detail sheet, exists for any app that is not safe. */
  function OffersUninstall(app: ScannedApp): (offered: bool)
    ensures offered <==> app.riskLevel.Suspicious? || app.riskLevel.Malicious?
  {
    app.riskLevel != Safe
  }

  /** One result row: the label when the package manager has one, else the package name. */
  function ScanEntry(packageName: string, appLabel: Option<string>, roll: bool): (r: ScannedApp)
    ensures r.packageName == packageName && r.appName == appLabel.GetOr(packageName)
    ensures r.riskLevel == SimulateRiskAnalysis(packageName, roll)
    ensures OffersUninstall(r) <==> r.issues != []
  {
    var risk := SimulateRiskAnalysis(packageName, roll);
    ScannedApp(packageName, appLabel.GetOr(packageName), risk, GenerateIssues(risk))
  }

  /**
   * The result list, one row per scanned package in order. `roll(i)` is the
   * draw made for the i-th package while the list is built.
   */
  function ScanEntries(apps: seq<string>, labels: string -> Option<string>, roll: nat -> bool): (r: seq<ScannedApp>)
    ensures |r| == |apps|
    ensures forall i :: 0 <= i < |r| ==> r[i].packageName == apps[i]
    ensures forall i :: 0 <= i < |r| ==> (r[i].riskLevel == Malicious <==> ContainsIgnoreCase(apps[i], "malware"))
    ensures forall i :: 0 <= i < |r| ==> (OffersUninstall(r[i]) <==> r[i].issues != [])
    ensures forall i :: 0 <= i < |r| ==>
              && r[i].appName == labels(apps[i]).GetOr(apps[i])
              && r[i].riskLevel == SimulateRiskAnalysis(apps[i], roll(i))
              && r[i].issues == GenerateIssues(r[i].riskLevel)
  {
    seq(|apps|, i requires 0 <= i < |apps| => ScanEntry(apps[i], labels(apps[i]), roll(i)))
  }

  datatype ScanState = ScanState(
    isScanning: bool,
    scanResult: Option<seq<ScannedApp>>,
    selectedApp: Option<ScannedApp>,
    scanId: Option<string>,
    threatsFound: Option<int>,
    riskScore: Option<int>)

  const Initial := ScanState(false, None, None, None, None, None)

  /** Scan Now (and Rescan, which repeats it): scanning starts and the previous result and summary are cleared. */
  function StartScan(s: ScanState): (r: ScanState)
    ensures r.isScanning && r.scanResult.None? && r.scanId.None? && r.threatsFound.None? && r.riskScore.None?
    ensures r.selectedApp == s.selectedApp
  {
    s.(isScanning := true, scanResult := None, scanId := None, threatsFound := None, riskScore := None)
  }

  /** The server's summary of an uploaded scan. */
  datatype ScanResponse = ScanResponse(scanId: string, threatsFound: int, riskScore: int)

  /** The upload: to the cached device identifier, with the access token, listing the scanned packages. */
  datatype UploadCall = UploadCall(deviceIdentifier: string, token: string, packages: seq<string>)

  datatype ScanOutcome = ScanOutcome(state: ScanState, upload: Option<UploadCall>)

  /**
   * The launched scan. Without a token the result is local. With one, a
   * missing or empty cached device identifier stops the scan without a
   * result; otherwise the scan is uploaded, and a 2xx with a body sets the
   * summary; any failure falls back to the local result. Scanning ends on
   * every path. It runs after Scan Now has cleared the summary.
   */
  function FinishScan(s: ScanState, all: seq<string>, token: Option<string>, cache: Option<string>,
                      labels: string -> Option<string>, roll: nat -> bool, h: Http<ScanResponse>): (r: ScanOutcome)
    requires s.scanId.None? && s.scanResult.None?
    ensures !r.state.isScanning
    ensures r.state.scanResult.None? <==> token.GetOr("") != "" && NullOrEmpty(cache)
    ensures r.state.scanResult.Some? ==> r.state.scanResult.value == ScanEntries(InstalledApps(all), labels, roll)
    ensures r.upload.Some? <==> token.GetOr("") != "" && !NullOrEmpty(cache)
    ensures r.upload.Some? ==> r.upload.value == UploadCall(cache.value, token.value, InstalledApps(all))
    ensures r.state.scanId.Some? <==> r.upload.Some? && h.Response? && IsSuccessful(h.code) && h.body.Some?
    ensures r.state.scanId.Some? ==>
              r.state.scanId == Some(h.body.value.scanId) && r.state.threatsFound == Some(h.body.value.threatsFound) &&
              r.state.riskScore == Some(h.body.value.riskScore)
    ensures r.state.scanId.None? ==> (r.state.threatsFound, r.state.riskScore) == (s.threatsFound, s.riskScore)
  {
    var apps := InstalledApps(all);
    var t := token.GetOr("");
    var stopped := s.(isScanning := false);
    var local := stopped.(scanResult := Some(ScanEntries(apps, labels, roll)));
    if t == "" then ScanOutcome(local, None)
    else if NullOrEmpty(cache) then ScanOutcome(stopped, None)
    else
      var upload := Some(UploadCall(cache.value, t, apps));
      if h.Response? && IsSuccessful(h.code) && h.body.Some? then
        var body := h.body.value;
        ScanOutcome(local.(scanId := Some(body.scanId), threatsFound := Some(body.threatsFound),
                           riskScore := Some(body.riskScore)), upload)
      else ScanOutcome(local, upload)
  }

  /** The app's own package never appears in a scan result. */
  lemma ResultNeverListsOwnApp(s: ScanState, all: seq<string>, token: Option<string>, cache: Option<string>,
                               labels: string -> Option<string>, roll: nat -> bool, h: Http<ScanResponse>)
    ensures var r := FinishScan(StartScan(s), all, token, cache, labels, roll, h).state.scanResult;
            r.Some? ==> forall i :: 0 <= i < |r.value| ==> r.value[i].packageName != OwnPackage
  {
    var apps := InstalledApps(all);
    var entries := ScanEntries(apps, labels, roll);
    forall i | 0 <= i < |entries|
      ensures entries[i].packageName != OwnPackage
    {
      assert entries[i].packageName == apps[i];
      assert apps[i] in apps;
    }
  }

  function WithoutPackage(packageName: string): ScannedApp -> bool {
    (app: ScannedApp) => app.packageName != packageName
  }

  /**
   * Remediation, after the uninstall intent is sent: every row of that
   * package leaves the list, every other row stays. From the detail sheet the
   * sheet also closes.
   */
  function Remediate(s: ScanState, app: ScannedApp, fromSheet: bool): (r: ScanState)
    ensures r.scanResult.None? <==> s.scanResult.None?
    ensures r.scanResult.Some? ==>
              (forall i :: 0 <= i < |r.scanResult.value| ==> r.scanResult.value[i].packageName != app.packageName) &&
              (forall i :: 0 <= i < |s.scanResult.value| && s.scanResult.value[i].packageName != app.packageName ==>
                 s.scanResult.value[i] in r.scanResult.value) &&
              (forall i :: 0 <= i < |r.scanResult.value| ==> r.scanResult.value[i] in s.scanResult.value) &&
              (forall row :: multiset(r.scanResult.value)[row] ==
                   if row.packageName == app.packageName then 0 else multiset(s.scanResult.value)[row])
    ensures r.selectedApp == (if fromSheet then None else s.selectedApp)
    ensures (r.isScanning, r.scanId, r.threatsFound, r.riskScore) == (s.isScanning, s.scanId, s.threatsFound, s.riskScore)
  {
    FilterCounts(s.scanResult.GetOr([]), WithoutPackage(app.packageName));
    var result := match s.scanResult
      case None => None
      case Some(rows) => Some(Filter(rows, WithoutPackage(app.packageName)));
    if fromSheet then s.(scanResult := result, selectedApp := None) else s.(scanResult := result)
  }

  /**
   * The remaining rows keep their order: remediating a list made of two runs
   * of rows leaves what remediation leaves of each, in turn.
   */
  lemma RemediateConcat(s: ScanState, a: seq<ScannedApp>, b: seq<ScannedApp>, app: ScannedApp, fromSheet: bool)
    ensures Remediate(s.(scanResult := Some(a + b)), app, fromSheet).scanResult ==
              Some(Remediate(s.(scanResult := Some(a)), app, fromSheet).scanResult.value +
                   Remediate(s.(scanResult := Some(b)), app, fromSheet).scanResult.value)
  {
    FilterConcat(a, b, WithoutPackage(app.packageName));
  }

  /** Remediating the same app twice changes nothing the second time. */
  lemma RemediateIdempotent(s: ScanState, app: ScannedApp, fromSheet: bool)
    ensures Remediate(Remediate(s, app, fromSheet), app, fromSheet) == Remediate(s, app, fromSheet)
  {
    if s.scanResult.Some? {
      FilterIdempotent(s.scanResult.value, WithoutPackage(app.packageName));
    }
  }

  /** Remediating an app that is no longer listed leaves the list as it is. */
  lemma RemediateAbsentKeepsList(s: ScanState, app: ScannedApp)
    requires s.scanResult.Some?
    requires forall i :: 0 <= i < |s.scanResult.value| ==> s.scanResult.value[i].packageName != app.packageName
    ensures Remediate(s, app, false) == s
  {
    FilterKeepsAll(s.scanResult.value, WithoutPackage(app.packageName));
  }

  /** A name containing both words is malicious: "malware" is checked first, and no draw changes that. */
  lemma MalwareBeatsSuspicious(packageName: string, roll: bool)
    requires ContainsIgnoreCase(packageName, "malware")
    ensures SimulateRiskAnalysis(packageName, roll) == Malicious
    ensures GenerateIssues(SimulateRiskAnalysis(packageName, roll)) == ["Known malware", "Data theft", "Root exploit"]
  {
  }

  /** The match ignores case: a name with "MALWARE" in capitals anywhere in it is malicious, whatever the draw. */
  lemma UpperCaseMalwareFound(packageName: string, at: nat, roll: bool)
    requires at + 7 <= |packageName| && packageName[at..at + 7] == "MALWARE"
    ensures SimulateRiskAnalysis(packageName, roll) == Malicious
  {
    forall j | 0 <= j < 7
      ensures CharEqualsIgnoreCase(packageName[at + j], "malware"[j])
    {
      assert packageName[at + j] == packageName[at..at + 7][j];
    }
    assert MatchesAt(packageName, at, "malware");
  }
}

=== FILE: auth_model.dfy ===
/** Request and response bodies of the authentication and device endpoints. */
module AuthModel {
  import opened Wrappers
  import opened User

  datatype LoginResponse = LoginResponse(accessToken: string, refreshToken: string, user: User)

  datatype RegisterResponse = RegisterResponse(mongoId: string, email: string)

  datatype GenericMessageResponse = GenericMessageResponse(message: string)

  datatype VerifyOtpResponse = VerifyOtpResponse(message: string, valid: bool)

  /** A device as the backend describes it; `mongoId` is its `_id`. */
  datatype DeviceInfo = DeviceInfo(
    mongoId: string,
    platform: string,
    osVersion: string,
    deviceModel: string,
    appVersion: string,
    deviceIdentifier: Option<string>)

  datatype RegisterDeviceRequest = RegisterDeviceRequest(
    platform: string, osVersion: string, deviceModel: string, appVersion: string, deviceIdentifier: string)

  datatype RegisterDeviceResponse = RegisterDeviceResponse(message: string, device: DeviceInfo, isRegistered: Option<bool>)

  datatype DeviceStatusResponse = DeviceStatusResponse(isDeviceRegistered: bool, deviceCount: int, devices: seq<DeviceInfo>)

  /** The answer of the device-check endpoint, whose client call is not part of this model. */
  datatype DeviceCheckResponse = DeviceCheckResponse(isRegistered: bool, device: Option<DeviceInfo>)
}

=== FILE: auth_repository.dfy ===
/**
 * `AuthRepository`: each operation reads the token store, makes at most the
 * requests its guards allow, and returns an `ApiResult`. HTTP answers are
 * oracle inputs; `sent` records the requests in the order they went out.
 */
module AuthRepository {
  import opened Wrappers
  import opened Api
  import opened TokenManager
  import opened User
  import opened AuthModel

  /** One outgoing request, with the credential or body it carried. */
  datatype Request =
    | RegisterCall(account: RegisterRequest)
    | LoginCall(email: string, password: string)
    | ForgotPasswordCall(email: string)
    | VerifyOtpCall(email: string, otp: string)
    | ResetPasswordCall(email: string, resetToken: string, newPassword: string)
    | RefreshCall(refreshToken: string)
    | ProfileCall(bearer: string)
    | RegisterDeviceCall(bearer: string, device: RegisterDeviceRequest)
    | StatusCall(bearer: string)

  /** The store after the call, the call's result, and the requests it made. */
  datatype Step<+T> = Step(store: Store, result: ApiResult<T>, sent: seq<Request>)

  /** A token guard passes only for a stored, non-empty token. */
  predicate HasToken(s: Store) {
    !NullOrEmpty(GetTokenSync(s))
  }

  /** POST /api/users/register: no stored state is involved. */
  function Register(s: Store, req: RegisterRequest, h: Http<RegisterResponse>): (r: Step<RegisterResponse>)
    ensures r.store == s && r.sent == [RegisterCall(req)]
    ensures r.result.Success? <==> h.Response? && IsSuccessful(h.code) && h.body.Some?
    ensures r.result.Success? ==> r.result.data == h.body.value
    ensures h.Response? && (IsSuccessful(h.code) || h.errorBody.Unreadable?) && !r.result.Success? ==>
              r.result == Error("Registration failed: " + h.statusMessage, Some(h.code))
    ensures h.Response? && !IsSuccessful(h.code) && h.errorBody.Message? ==> r.result == Error(h.errorBody.text, Some(h.code))
    ensures h.Response? && !IsSuccessful(h.code) && h.errorBody.NoMessage? ==> r.result == Error(NullMessageFailure, None)
    ensures h.Thrown? ==> r.result == Error(h.message.GetOr(NetworkErrorOccurred), None)
  {
    Step(s, Classify(h, WithStatus("Registration failed: "), NetworkErrorOccurred), [RegisterCall(req)])
  }

  /**
   * POST /api/auth/login. On success both tokens and the user's id and email
   * are stored before returning; on any failure the store is untouched.
   */
  function Login(s: Store, email: string, password: string, h: Http<LoginResponse>): (r: Step<LoginResponse>)
    ensures r.sent == [LoginCall(email, password)]
    ensures !r.result.Loading?
    ensures r.result.Success? <==> h.Response? && IsSuccessful(h.code) && h.body.Some?
    ensures r.result.Success? ==>
              var body := h.body.value;
              && r.result.data == body
              && GetTokenSync(r.store) == Some(body.accessToken)
              && GetRefreshTokenSync(r.store) == Some(body.refreshToken)
              && Get(r.store, UserId) == Some(Uid(body.user))
              && Get(r.store, UserEmail) == Some(body.user.email)
    ensures r.result.Error? ==> r.store == s
    ensures h.Response? && (IsSuccessful(h.code) || h.errorBody.Unreadable?) && !r.result.Success? ==>
              r.result == Error("Login failed: " + h.statusMessage, Some(h.code))
    ensures h.Response? && !IsSuccessful(h.code) && h.errorBody.Message? ==> r.result == Error(h.errorBody.text, Some(h.code))
    ensures h.Response? && !IsSuccessful(h.code) && h.errorBody.NoMessage? ==> r.result == Error(NullMessageFailure, None)
    ensures h.Thrown? ==> r.result == Error(h.message.GetOr(NetworkErrorOccurred), None)
  {
    var result := Classify(h, WithStatus("Login failed: "), NetworkErrorOccurred);
    var store :=
      if result.Success? then
        var body := result.data;
        SaveUserInfo(SaveRefreshToken(SaveToken(s, body.accessToken), body.refreshToken), Uid(body.user), body.user.email)
      else s;
    Step(store, result, [LoginCall(email, password)])
  }

  /** POST /api/auth/forgot-password. */
  function ForgotPassword(s: Store, email: string, h: Http<GenericMessageResponse>): (r: Step<GenericMessageResponse>)
    ensures r.store == s && r.sent == [ForgotPasswordCall(email)]
    ensures r.result.Success? <==> h.Response? && IsSuccessful(h.code) && h.body.Some?
    ensures r.result.Success? ==> r.result.data == h.body.value
    ensures h.Response? && (IsSuccessful(h.code) || h.errorBody.Unreadable?) && !r.result.Success? ==>
              r.result == Error("Failed to send reset email", Some(h.code))
    ensures h.Response? && !IsSuccessful(h.code) && h.errorBody.Message? ==> r.result == Error(h.errorBody.text, Some(h.code))
    ensures h.Response? && !IsSuccessful(h.code) && h.errorBody.NoMessage? ==> r.result == Error(NullMessageFailure, None)
    ensures h.Thrown? ==> r.result == Error(h.message.GetOr(NetworkErrorOccurred), None)
  {
    Step(s, Classify(h, Fixed("Failed to send reset email"), NetworkErrorOccurred), [ForgotPasswordCall(email)])
  }

  /** POST /api/auth/verify-otp. */
  function VerifyOtp(s: Store, email: string, otp: string, h: Http<VerifyOtpResponse>): (r: Step<VerifyOtpResponse>)
    ensures r.store == s && r.sent == [VerifyOtpCall(email, otp)]
    ensures r.result.Success? <==> h.Response? && IsSuccessful(h.code) && h.body.Some?
    ensures r.result.Success? ==> r.result.data == h.body.value
    ensures h.Response? && (IsSuccessful(h.code) || h.errorBody.Unreadable?) && !r.result.Success? ==>
              r.result == Error("OTP verification failed", Some(h.code))
    ensures h.Response? && !IsSuccessful(h.code) && h.errorBody.Message? ==> r.result == Error(h.errorBody.text, Some(h.code))
    ensures h.Response? && !IsSuccessful(h.code) && h.errorBody.NoMessage? ==> r.result == Error(NullMessageFailure, None)
    ensures h.Thrown? ==> r.result == Error(h.message.GetOr(NetworkErrorOccurred), None)
  {
    Step(s, Classify(h, Fixed("OTP verification failed"), NetworkErrorOccurred), [VerifyOtpCall(email, otp)])
  }

  /** POST /api/auth/reset-password. */
  function ResetPassword(s: Store, email: string, resetToken: string, newPassword: string, h: Http<GenericMessageResponse>)
    : (r: Step<GenericMessageResponse>)
    ensures r.store == s && r.sent == [ResetPasswordCall(email, resetToken, newPassword)]
    ensures r.result.Success? <==> h.Response? && IsSuccessful(h.code) && h.body.Some?
    ensures r.result.Success? ==> r.result.data == h.body.value
    ensures h.Response? && (IsSuccessful(h.code) || h.errorBody.Unreadable?) && !r.result.Success? ==>
              r.result == Error("Password reset failed", Some(h.code))
    ensures h.Response? && !IsSuccessful(h.code) && h.errorBody.Message? ==> r.result == Error(h.errorBody.text, Some(h.code))
    ensures h.Response? && !IsSuccessful(h.code) && h.errorBody.NoMessage? ==> r.result == Error(NullMessageFailure, None)
    ensures h.Thrown? ==> r.result == Error(h.message.GetOr(NetworkErrorOccurred), None)
  {
    Step(s, Classify(h, Fixed("Password reset failed"), NetworkErrorOccurred),
         [ResetPasswordCall(email, resetToken, newPassword)])
  }

  /** A call of one of the four endpoints that do not touch the store, with the answer it gets. */
  datatype PlainCall =
    | RegisterWith(account: RegisterRequest, registered: Http<RegisterResponse>)
    | ForgotPasswordWith(forgotEmail: string, sentCode: Http<GenericMessageResponse>)
    | VerifyOtpWith(otpEmail: string, otp: string, verdict: Http<VerifyOtpResponse>)
    | ResetPasswordWith(resetEmail: string, resetToken: string, newPassword: string, reset: Http<GenericMessageResponse>)

  /** The request a plain call puts on the wire. */
  function RequestOf(c: PlainCall): Request {
    match c
    case RegisterWith(account, _) => RegisterCall(account)
    case ForgotPasswordWith(email, _) => ForgotPasswordCall(email)
    case VerifyOtpWith(email, otp, _) => VerifyOtpCall(email, otp)
    case ResetPasswordWith(email, token, password, _) => ResetPasswordCall(email, token, password)
  }

  /** The store and the requests after one plain call. */
  datatype Session = Session(store: Store, sent: seq<Request>)

  function Perform(s: Store, c: PlainCall): Session {
    match c
    case RegisterWith(account, h) => var r := Register(s, account, h); Session(r.store, r.sent)
    case ForgotPasswordWith(email, h) => var r := ForgotPassword(s, email, h); Session(r.store, r.sent)
    case VerifyOtpWith(email, otp, h) => var r := VerifyOtp(s, email, otp, h); Session(r.store, r.sent)
    case ResetPasswordWith(email, token, password, h) =>
      var r := ResetPassword(s, email, token, password, h); Session(r.store, r.sent)
  }

  function PerformAll(s: Store, cs: seq<PlainCall>): Session
    decreases |cs|
  {
    if cs == [] then Session(s, [])
    else
      var first := Perform(s, cs[0]);
      var rest := PerformAll(first.store, cs[1..]);
      Session(rest.store, first.sent + rest.sent)
  }

  /**
   * However many registrations and password-reset calls are made, whatever
   * their answers, the session is exactly as it was, and each call sent its
   * own request once, in order.
   */
  lemma {:induction false} PlainCallsKeepSession(s: Store, cs: seq<PlainCall>)
    ensures PerformAll(s, cs).store == s
    ensures IsLoggedIn(PerformAll(s, cs).store) <==> IsLoggedIn(s)
    ensures |PerformAll(s, cs).sent| == |cs|
    ensures forall i :: 0 <= i < |cs| ==> PerformAll(s, cs).sent[i] == RequestOf(cs[i])
    decreases |cs|
  {
    if cs != [] {
      var first := Perform(s, cs[0]);
      assert first == Session(s, [RequestOf(cs[0])]);
      PlainCallsKeepSession(s, cs[1..]);
      var all := PerformAll(s, cs);
      assert all.sent == [RequestOf(cs[0])] + PerformAll(s, cs[1..]).sent;
      forall i | 0 <= i < |cs|
        ensures all.sent[i] == RequestOf(cs[i])
      {
        if i > 0 {
          assert all.sent[i] == PerformAll(s, cs[1..]).sent[i - 1];
          assert cs[1..][i - 1] == cs[i];
        }
      }
    }
  }

  /**
   * POST /api/auth/refresh. Without a stored, non-empty refresh token it fails
   * at once with no request; on success it overwrites both tokens and leaves
   * the user info alone; on failure the store is untouched.
   */
  function RefreshToken(s: Store, h: Http<LoginResponse>): (r: Step<LoginResponse>)
    ensures !r.result.Loading?
    ensures NullOrEmpty(GetRefreshTokenSync(s)) ==>
              r == Step(s, Error("No refresh token available", None), [])
    ensures !NullOrEmpty(GetRefreshTokenSync(s)) ==>
              && r.sent == [RefreshCall(GetRefreshTokenSync(s).value)]
              && (r.result.Success? <==> h.Response? && IsSuccessful(h.code) && h.body.Some?)
    ensures r.result.Success? ==>
              && GetTokenSync(r.store) == Some(r.result.data.accessToken)
              && GetRefreshTokenSync(r.store) == Some(r.result.data.refreshToken)
    ensures Get(r.store, UserId) == Get(s, UserId) && Get(r.store, UserEmail) == Get(s, UserEmail)
    ensures !r.result.Success? ==> r.store == s
  {
    var refresh := GetRefreshTokenSync(s);
    if NullOrEmpty(refresh) then Step(s, Error("No refresh token available", None), [])
    else
      var result := Classify(h, Fixed("Token refresh failed"), NetworkErrorOccurred);
      var store :=
        if result.Success? then SaveRefreshToken(SaveToken(s, result.data.accessToken), result.data.refreshToken)
        else s;
      Step(store, result, [RefreshCall(refresh.value)])
  }

  /** `logout`: the whole store is cleared. */
  function Logout(s: Store): (r: Store)
    ensures !IsLoggedIn(r)
    ensures forall k :: Get(r, k).None?
  {
    ClearToken(s)
  }

  /** `isLoggedIn`: a stored token that is not empty. */
  predicate IsLoggedIn(s: Store)
    ensures IsLoggedIn(s) <==> GetTokenSync(s).Some? && GetTokenSync(s).value != ""
  {
    HasToken(s)
  }

  /** GET /api/users/profile, guarded by the access token. */
  function GetCurrentUser(s: Store, h: Http<User>): (r: Step<User>)
    ensures r.store == s
    ensures !HasToken(s) ==> r.result == Error("No access token available", None) && r.sent == []
    ensures HasToken(s) ==>
              && r.sent == [ProfileCall(GetTokenSync(s).value)]
              && r.result == Classify(h, Fixed("Failed to fetch user profile"), NetworkErrorOccurred)
  {
    var token := GetTokenSync(s);
    if NullOrEmpty(token) then Step(s, Error("No access token available", None), [])
    else Step(s, Classify(h, Fixed("Failed to fetch user profile"), NetworkErrorOccurred), [ProfileCall(token.value)])
  }

  /**
   * POST /api/devices/register, guarded by the access token. A non-success
   * response is reported with the HTTP reason phrase; the error body is not read.
   */
  function RegisterDevice(s: Store, req: RegisterDeviceRequest, h: Http<RegisterDeviceResponse>)
    : (r: Step<RegisterDeviceResponse>)
    ensures r.store == s && !r.result.Loading?
    ensures !HasToken(s) ==> r.result == Error("Not authenticated", None) && r.sent == []
    ensures HasToken(s) ==> r.sent == [RegisterDeviceCall(GetTokenSync(s).value, req)]
    ensures HasToken(s) && h.Response? && !(IsSuccessful(h.code) && h.body.Some?) ==>
              r.result == Error("Registration failed: " + h.statusMessage, Some(h.code))
    ensures HasToken(s) && h.Response? && IsSuccessful(h.code) && h.body.Some? ==> r.result == Success(h.body.value)
    ensures HasToken(s) && h.Thrown? ==> r.result == Error(h.message.GetOr("Network error"), None)
  {
    var token := GetTokenSync(s);
    if NullOrEmpty(token) then Step(s, Error("Not authenticated", None), [])
    else
      var result :=
        match h
        case Thrown(m) => Error(m.GetOr("Network error"), None)
        case Response(code, body, _, status) =>
          if IsSuccessful(code) && body.Some? then Success(body.value)
          else Error("Registration failed: " + status, Some(code));
      Step(s, result, [RegisterDeviceCall(token.value, req)])
  }

  /** How one device-status answer becomes a result. */
  function StatusResult(h: Http<DeviceStatusResponse>): ApiResult<DeviceStatusResponse> {
    Classify(h, Fixed("Failed to fetch device status"), NetworkErrorOccurred)
  }

  /**
   * GET /api/devices/status with one refresh-and-retry: token guard, first
   * request, and only on a 401 a single refresh followed by a single retry
   * with the refreshed token. `first`, `refresh` and `retry` are the answers
   * those three requests would get.
   */
  function GetDeviceStatus(s: Store, first: Http<DeviceStatusResponse>, refresh: Http<LoginResponse>,
                           retry: Http<DeviceStatusResponse>): (r: Step<DeviceStatusResponse>)
    ensures !r.result.Loading?
    ensures !HasToken(s) ==> r == Step(s, Error("Not authenticated", None), [])
    ensures HasToken(s) ==> |r.sent| >= 1 && r.sent[0] == StatusCall(GetTokenSync(s).value)
    ensures HasToken(s) && !(first.Response? && first.code == 401) ==>
              r == Step(s, StatusResult(first), [StatusCall(GetTokenSync(s).value)])
  {
    var token := GetTokenSync(s);
    if NullOrEmpty(token) then Step(s, Error("Not authenticated", None), [])
    else
      var sent := [StatusCall(token.value)];
      if first.Response? && first.code == 401 then
        var refreshed := RefreshToken(s, refresh);
        var sent' := sent + refreshed.sent;
        if !refreshed.result.Success? then
          Step(refreshed.store, Error("Unauthorized - please login again", Some(401)), sent')
        else
          var token' := GetTokenSync(refreshed.store);
          if NullOrEmpty(token') then Step(refreshed.store, Error("Token refresh failed", Some(401)), sent')
          else Step(refreshed.store, StatusResult(retry), sent' + [StatusCall(token'.value)])
      else Step(s, StatusResult(first), sent)
  }

  /** The number of refresh requests in a trace. */
  function CountRefreshes(sent: seq<Request>): nat {
    if sent == [] then 0 else (if sent[0].RefreshCall? then 1 else 0) + CountRefreshes(sent[1..])
  }

  lemma {:induction false} CountRefreshesConcat(a: seq<Request>, b: seq<Request>)
    ensures CountRefreshes(a + b) == CountRefreshes(a) + CountRefreshes(b)
  {
    if a == [] {
      assert a + b == b;
    } else {
      assert (a + b)[0] == a[0];
      assert (a + b)[1..] == a[1..] + b;
      CountRefreshesConcat(a[1..], b);
    }
  }

  /**
   * A 401 triggers exactly one refresh attempt when a refresh token is stored
   * (none otherwise), and at most one retry: the whole call sends at most
   * three requests. A failed refresh, or one that stores an empty token, is
   * reported as a 401.
   */
  lemma DeviceStatusOnUnauthorized(s: Store, first: Http<DeviceStatusResponse>, refresh: Http<LoginResponse>,
                                   retry: Http<DeviceStatusResponse>)
    requires HasToken(s) && first.Response? && first.code == 401
    ensures var r := GetDeviceStatus(s, first, refresh, retry);
            && |r.sent| <= 3
            && CountRefreshes(r.sent) == (if NullOrEmpty(GetRefreshTokenSync(s)) then 0 else 1)
            && (!RefreshToken(s, refresh).result.Success? ==>
                  r.result == Error("Unauthorized - please login again", Some(401)) && |r.sent| <= 2)
            && (RefreshToken(s, refresh).result.Success? && RefreshToken(s, refresh).result.data.accessToken == "" ==>
                  r.result == Error("Token refresh failed", Some(401)) && |r.sent| == 2)
  {
    var r := GetDeviceStatus(s, first, refresh, retry);
    var refreshed := RefreshToken(s, refresh);
    var t := GetTokenSync(s).value;
    if !refreshed.result.Success? {
      CountRefreshesConcat([StatusCall(t)], refreshed.sent);
    } else {
      var t' := GetTokenSync(refreshed.store).value;
      CountRefreshesConcat([StatusCall(t)], refreshed.sent);
      if t' != "" {
        CountRefreshesConcat([StatusCall(t)] + refreshed.sent, [StatusCall(t')]);
      }
    }
  }

  /**
   * After a successful refresh the retry carries the refreshed access token
   * and its answer is final: a second 401 is returned as an Error with that
   * code, and there is no further request.
   */
  lemma DeviceStatusRetryIsFinal(s: Store, first: Http<DeviceStatusResponse>, refresh: Http<LoginResponse>,
                                 retry: Http<DeviceStatusResponse>)
    requires HasToken(s) && first.Response? && first.code == 401
    requires RefreshToken(s, refresh).result.Success?
    requires RefreshToken(s, refresh).result.data.accessToken != ""
    ensures var r := GetDeviceStatus(s, first, refresh, retry);
            var issued := RefreshToken(s, refresh).result.data;
            && |r.sent| == 3
            && r.sent[1] == RefreshCall(GetRefreshTokenSync(s).value)
            && r.sent[2] == StatusCall(issued.accessToken)
            && r.result == StatusResult(retry)
            && (retry.Response? && retry.code == 401 && retry.errorBody.Message? ==> r.result == Error(retry.errorBody.text, Some(401)))
            && (retry.Response? && retry.code == 401 && retry.errorBody.Unreadable? ==>
                  r.result == Error("Failed to fetch device status", Some(401)))
            && GetTokenSync(r.store) == Some(issued.accessToken)
  {
  }

  /** No device-status path touches the stored user id or email. */
  lemma DeviceStatusKeepsUserInfo(s: Store, first: Http<DeviceStatusResponse>, refresh: Http<LoginResponse>,
                                  retry: Http<DeviceStatusResponse>)
    ensures var r := GetDeviceStatus(s, first, refresh, retry);
            Get(r.store, UserId) == Get(s, UserId) && Get(r.store, UserEmail) == Get(s, UserEmail)
  {
  }

  /** A successful login leaves the session logged in exactly when the server issued a non-empty token. */
  lemma LoginThenLoggedIn(s: Store, email: string, password: string, h: Http<LoginResponse>)
    requires Login(s, email, password, h).result.Success?
    ensures IsLoggedIn(Login(s, email, password, h).store) <==> h.body.value.accessToken != ""
  {
  }

  /** Logging out after any login leaves nothing behind. */
  lemma LogoutAfterLogin(s: Store, email: string, password: string, h: Http<LoginResponse>)
    ensures var after := Logout(Login(s, email, password, h).store);
            !IsLoggedIn(after) && Get(after, UserId).None? && GetRefreshTokenSync(after).None?
  {
  }

  /**
   * The token-guarded calls follow the session: after a login that received
   * a non-empty access token, the profile and device registration requests
   * each go out once, bearing that token; after logout neither sends anything.
   */
  lemma GuardedCallsFollowSession(s: Store, email: string, password: string, h: Http<LoginResponse>,
                                  profile: Http<User>, req: RegisterDeviceRequest, device: Http<RegisterDeviceResponse>)
    requires Login(s, email, password, h).result.Success? && h.body.value.accessToken != ""
    ensures var token := h.body.value.accessToken;
            var inSession := Login(s, email, password, h).store;
            && GetCurrentUser(inSession, profile).sent == [ProfileCall(token)]
            && RegisterDevice(inSession, req, device).sent == [RegisterDeviceCall(token, req)]
    ensures var out := Logout(Login(s, email, password, h).store);
            && GetCurrentUser(out, profile) == Step(out, Error("No access token available", None), [])
            && RegisterDevice(out, req, device) == Step(out, Error("Not authenticated", None), [])
  {
    var inSession := Login(s, email, password, h).store;
    assert GetTokenSync(inSession) == Some(h.body.value.accessToken);
    assert HasToken(inSession);
    assert !HasToken(Logout(inSession));
  }
}

=== FILE: field_rules.dfy ===
/**
 * The email and password rules shared by the login, sign-up and reset
 * screens: "blank" is checked first, then the format or the length. Only the
 * second-tier messages differ from screen to screen.
 */
module FieldRules {
  import opened Wrappers
  import opened Text

  const EmailRequired := "Email is required"
  const PasswordRequired := "Password is required"

  /** The minimum password length, in UTF-16 code units. */
  const MinPasswordLength := 6

  /** Blank beats invalid; a non-blank email the platform pattern accepts has no error. */
  function EmailError(email: string, isValidEmail: string -> bool, invalidMessage: string): (e: Option<string>)
    ensures e.None? <==> !IsBlank(email) && isValidEmail(email)
    ensures IsBlank(email) ==> e == Some(EmailRequired)
    ensures !IsBlank(email) && !isValidEmail(email) ==> e == Some(invalidMessage)
  {
    if IsBlank(email) then Some(EmailRequired)
    else if !isValidEmail(email) then Some(invalidMessage)
    else None
  }

  /**
   * Blank beats short: six spaces are "required", not accepted; a non-blank
   * password of six or more code units has no error.
   */
  function PasswordError(password: string, tooShortMessage: string): (e: Option<string>)
    ensures e.None? <==> !IsBlank(password) && Utf16Length(password) >= MinPasswordLength
    ensures IsBlank(password) ==> e == Some(PasswordRequired)
    ensures !IsBlank(password) && Utf16Length(password) < MinPasswordLength ==> e == Some(tooShortMessage)
  {
    if IsBlank(password) then Some(PasswordRequired)
    else if Utf16Length(password) < MinPasswordLength then Some(tooShortMessage)
    else None
  }

  /** A confirmation field must equal the password exactly, whatever the password is. */
  function ConfirmationError(password: string, confirmation: string): (e: Option<string>)
    ensures e.None? <==> confirmation == password
    ensures e.Some? ==> e.value == "Passwords do not match"
  {
    if confirmation != password then Some("Passwords do not match") else None
  }
}

=== FILE: forgot_password_screen.dfy ===
/**
 * The Send Reset Code screen: the only form that stops at its first failed
 * check. A successful answer first shows the "Reset code sent" snackbar and
 * only when it closes calls `onSendSuccess`; meanwhile the field stays
 * editable and, loading being over, the button is enabled again.
 */
module ForgotPasswordScreen {
  import opened Wrappers
  import opened Text
  import opened FieldRules
  import opened Api
  import opened AuthModel

  /**
   * The screen's four state holders, plus the coroutine's view: `inFlight` is
   * the email the request in flight carried (meaningful while loading), and
   * `confirming` is the email of the request that succeeded while its
   * snackbar is showing.
   */
  datatype ForgotState = ForgotState(
    email: string,
    isLoading: bool,
    emailError: Option<string>,
    errorMessage: Option<string>,
    inFlight: string,
    confirming: Option<string>)

  const Initial := ForgotState("", false, None, None, "", None)

  const InvalidEmailFormat := "Invalid email format"

  /** The field stores its input trimmed and clears the email error. */
  function OnEmailChange(s: ForgotState, input: string): (r: ForgotState)
    ensures r.email == Trim(input) && IsTrimmed(r.email) && r.emailError.None?
    ensures r.(email := s.email, emailError := s.emailError) == s
  {
    s.(email := Trim(input), emailError := None)
  }

  datatype SendStep = SendStep(state: ForgotState, request: Option<string>)

  /**
   * Send Reset Code: both messages are cleared; a blank email, or else an
   * email the platform pattern rejects, sets one message and stops; otherwise
   * loading starts and the email is sent.
   */
  function SendResetCode(s: ForgotState, isValidEmail: string -> bool): (r: SendStep)
    ensures r.state.errorMessage.None? && r.state.email == s.email && r.state.confirming == s.confirming
    ensures IsBlank(s.email) ==> r == SendStep(s.(emailError := Some(EmailRequired), errorMessage := None), None)
    ensures !IsBlank(s.email) && !isValidEmail(s.email) ==>
              r == SendStep(s.(emailError := Some(InvalidEmailFormat), errorMessage := None), None)
    ensures r.request.Some? <==> !IsBlank(s.email) && isValidEmail(s.email)
    ensures r.request.Some? ==>
              r.request.value == s.email && r.state.isLoading && r.state.inFlight == s.email && r.state.emailError.None?
  {
    var cleared := s.(errorMessage := None, emailError := None);
    if IsBlank(s.email) then SendStep(cleared.(emailError := Some(EmailRequired)), None)
    else if !isValidEmail(s.email) then SendStep(cleared.(emailError := Some(InvalidEmailFormat)), None)
    else SendStep(cleared.(isLoading := true, inFlight := s.email), Some(s.email))
  }

  /** Every answer clears `isLoading`; Success starts the confirmation snackbar; Error shows its message. */
  function OnForgotResult(s: ForgotState, result: ApiResult<GenericMessageResponse>): (r: ForgotState)
    ensures !r.isLoading
    ensures result.Success? ==> r.confirming == Some(s.inFlight)
    ensures !result.Success? ==> r.confirming == s.confirming
    ensures result.Error? ==> r.errorMessage == Some(result.message)
    ensures !result.Error? ==> r.errorMessage == s.errorMessage
    ensures r.email == s.email && r.emailError == s.emailError && r.inFlight == s.inFlight
  {
    match result
    case Success(_) => s.(isLoading := false, confirming := Some(s.inFlight))
    case Error(message, _) => s.(isLoading := false, errorMessage := Some(message))
    case Loading => s.(isLoading := false)
  }

  /** `onSendSuccess(email)`, when called. */
  datatype Completion = Completion(state: ForgotState, sentTo: Option<string>)

  /** As written: when the snackbar closes, `onSendSuccess` gets the field's value at that moment. */
  function CloseConfirmationAsWritten(s: ForgotState): (r: Completion)
    ensures r.sentTo.Some? <==> s.confirming.Some?
    ensures r.sentTo.Some? ==> r.sentTo.value == s.email
    ensures r.state == s.(confirming := None)
  {
    if s.confirming.Some? then Completion(s.(confirming := None), Some(s.email)) else Completion(s, None)
  }

  /** As intended: `onSendSuccess` gets the email the reset code was sent to. */
  function CloseConfirmation(s: ForgotState): (r: Completion)
    ensures r.sentTo == s.confirming
    ensures r.state == s.(confirming := None)
  {
    if s.confirming.Some? then Completion(s.(confirming := None), Some(s.confirming.value)) else Completion(s, None)
  }

  datatype Event = Edit(input: string) | PressSend | SendAnswered(result: ApiResult<GenericMessageResponse>) | SnackbarClosed

  /** What the screen does outside itself: a reset-code request, or `onSendSuccess`. */
  datatype Output = Sent(email: string) | HandedOn(email: string)

  datatype Step = Step(state: ForgotState, out: seq<Output>)

  /**
   * One event. The button is disabled while loading, and an answer belongs to
   * the request in flight, so a press while loading and an answer while not
   * loading change nothing. `asWritten` picks how the snackbar closes.
   */
  function React(s: ForgotState, e: Event, isValidEmail: string -> bool, asWritten: bool): (r: Step)
    ensures e.Edit? ==> r == Step(OnEmailChange(s, e.input), [])
    ensures e.PressSend? && s.isLoading ==> r == Step(s, [])
    ensures e.SendAnswered? && !s.isLoading ==> r == Step(s, [])
  {
    match e
    case Edit(input) => Step(OnEmailChange(s, input), [])
    case PressSend =>
      if s.isLoading then Step(s, [])
      else
        var p := SendResetCode(s, isValidEmail);
        Step(p.state, if p.request.Some? then [Sent(p.request.value)] else [])
    case SendAnswered(result) => if s.isLoading then Step(OnForgotResult(s, result), []) else Step(s, [])
    case SnackbarClosed =>
      var c := if asWritten then CloseConfirmationAsWritten(s) else CloseConfirmation(s);
      Step(c.state, if c.sentTo.Some? then [HandedOn(c.sentTo.value)] else [])
  }

  function Handle(s: ForgotState, e: Event, isValidEmail: string -> bool): Step {
    React(s, e, isValidEmail, false)
  }

  function HandleAsWritten(s: ForgotState, e: Event, isValidEmail: string -> bool): Step {
    React(s, e, isValidEmail, true)
  }

  /** The events in turn, appending what each does to the trace `out`. */
  function Run(s: ForgotState, es: seq<Event>, isValidEmail: string -> bool, out: seq<Output>): Step
    decreases |es|
  {
    if es == [] then Step(s, out)
    else
      var first := Handle(s, es[0], isValidEmail);
      Run(first.state, es[1..], isValidEmail, out + first.out)
  }

  /**
   * As written, with no edit between the press and the snackbar closing, the
   * email handed on is the one the reset code was sent to.
   */
  lemma SendSuccessPassesSubmittedEmail(s: ForgotState, isValidEmail: string -> bool, data: GenericMessageResponse)
    requires !s.isLoading && !IsBlank(s.email) && isValidEmail(s.email)
    ensures var pressed := HandleAsWritten(s, PressSend, isValidEmail);
            var answered := HandleAsWritten(pressed.state, SendAnswered(Success(data)), isValidEmail);
            var closed := HandleAsWritten(answered.state, SnackbarClosed, isValidEmail);
            pressed.out == [Sent(s.email)] && answered.out == [] && closed.out == [HandedOn(s.email)]
  {
  }

  /**
   * As written, an edit while the snackbar shows changes the email handed on:
   * the OTP screen opens for an address no code was sent to.
   */
  lemma EditDuringConfirmationAsWritten(s: ForgotState, isValidEmail: string -> bool, data: GenericMessageResponse,
                                        input: string)
    requires !s.isLoading && !IsBlank(s.email) && isValidEmail(s.email)
    requires Trim(input) != s.email
    ensures var pressed := HandleAsWritten(s, PressSend, isValidEmail);
            var answered := HandleAsWritten(pressed.state, SendAnswered(Success(data)), isValidEmail);
            var edited := HandleAsWritten(answered.state, Edit(input), isValidEmail);
            var closed := HandleAsWritten(edited.state, SnackbarClosed, isValidEmail);
            pressed.out == [Sent(s.email)] && closed.out == [HandedOn(Trim(input))] && Trim(input) != s.email
  {
  }

  /** Every request and hand-on so far is accounted for by the trace `out`. */
  ghost predicate Accounted(s: ForgotState, out: seq<Output>) {
    && (s.isLoading ==> Sent(s.inFlight) in out)
    && (s.confirming.Some? ==> Sent(s.confirming.value) in out)
    && forall i :: 0 <= i < |out| && out[i].HandedOn? ==> Sent(out[i].email) in out[..i]
  }

  lemma AppendKeepsPrefixes(out: seq<Output>, more: seq<Output>)
    ensures forall i :: 0 <= i <= |out| ==> (out + more)[..i] == out[..i]
  {
    forall i | 0 <= i <= |out|
      ensures (out + more)[..i] == out[..i]
    {
      assert (out + more)[..i] == out[..i];
    }
  }

  lemma HandleKeepsAccounted(s: ForgotState, out: seq<Output>, e: Event, isValidEmail: string -> bool)
    requires Accounted(s, out)
    ensures var r := Handle(s, e, isValidEmail); Accounted(r.state, out + r.out)
  {
    var r := Handle(s, e, isValidEmail);
    AppendKeepsPrefixes(out, r.out);
    var all := out + r.out;
    if r.out != [] {
      assert |r.out| == 1;
      assert all[..|out|] == out;
      forall i | 0 <= i < |all| && all[i].HandedOn?
        ensures Sent(all[i].email) in all[..i]
      {
        if i == |out| {
          assert e.SnackbarClosed? && s.confirming.Some? && all[i].email == s.confirming.value;
        } else {
          assert all[i] == out[i];
        }
      }
    }
  }

  lemma {:induction false} RunKeepsAccounted(s: ForgotState, es: seq<Event>, isValidEmail: string -> bool, out: seq<Output>)
    requires Accounted(s, out)
    ensures var r := Run(s, es, isValidEmail, out); Accounted(r.state, r.out)
    decreases |es|
  {
    if es != [] {
      var first := Handle(s, es[0], isValidEmail);
      HandleKeepsAccounted(s, out, es[0], isValidEmail);
      RunKeepsAccounted(first.state, es[1..], isValidEmail, out + first.out);
    }
  }

  /**
   * The intended property: whatever the user types and presses, every email
   * handed to the OTP screen is one a reset code was sent to before.
   */
  lemma HandedOnEmailWasSent(es: seq<Event>, isValidEmail: string -> bool)
    ensures var out := Run(Initial, es, isValidEmail, []).out;
            forall i :: 0 <= i < |out| && out[i].HandedOn? ==> Sent(out[i].email) in out[..i]
  {
    RunKeepsAccounted(Initial, es, isValidEmail, []);
  }
}

=== FILE: login_screen.dfy ===
/** The Sign In screen's own state and handlers, which validate inline. */
module LoginScreen {
  import opened Wrappers
  import opened Text
  import opened FieldRules
  import opened Api
  import opened AuthModel
  import LoginValidation

  datatype LoginScreenState = LoginScreenState(
    email: string,
    password: string,
    isPasswordVisible: bool,
    isLoading: bool,
    emailError: Option<string>,
    passwordError: Option<string>,
    errorMessage: Option<string>)

  const Initial := LoginScreenState("", "", false, false, None, None, None)

  const InvalidEmail := "Invalid email"
  const PasswordTooShort := "Password too short"

  /** The email field stores its input trimmed and clears its error. */
  function OnEmailChange(s: LoginScreenState, input: string): (r: LoginScreenState)
    ensures r.email == Trim(input) && IsTrimmed(r.email)
    ensures r.emailError.None?
    ensures r.(email := s.email, emailError := s.emailError) == s
  {
    s.(email := Trim(input), emailError := None)
  }

  /** The password field stores its input verbatim and clears its error. */
  function OnPasswordChange(s: LoginScreenState, input: string): (r: LoginScreenState)
    ensures r.password == input && r.passwordError.None?
    ensures r.(password := s.password, passwordError := s.passwordError) == s
  {
    s.(password := input, passwordError := None)
  }

  /** The login request the button hands to the repository. */
  datatype LoginRequest = LoginRequest(email: string, password: string)

  datatype SignInStep = SignInStep(state: LoginScreenState, request: Option<LoginRequest>)

  /**
   * Sign In: all three messages are cleared, both fields are checked, and the
   * repository is called, with the fields as they stand, only when neither
   * check set an error.
   */
  function SignIn(s: LoginScreenState, isValidEmail: string -> bool): (r: SignInStep)
    ensures r.state.errorMessage.None?
    ensures r.state.emailError == EmailError(s.email, isValidEmail, InvalidEmail)
    ensures r.state.passwordError == PasswordError(s.password, PasswordTooShort)
    ensures r.request.Some? <==> r.state.emailError.None? && r.state.passwordError.None?
    ensures r.request.Some? ==> r.request.value == LoginRequest(s.email, s.password) && r.state.isLoading
    ensures r.request.None? ==> r.state.isLoading == s.isLoading
    ensures r.state.email == s.email && r.state.password == s.password
  {
    var checked := s.(emailError := EmailError(s.email, isValidEmail, InvalidEmail),
                      passwordError := PasswordError(s.password, PasswordTooShort),
                      errorMessage := None);
    if checked.emailError.Some? || checked.passwordError.Some? then SignInStep(checked, None)
    else SignInStep(checked.(isLoading := true), Some(LoginRequest(s.email, s.password)))
  }

  /** What the screen does with the repository's answer; `navigated` is the `onLoginSuccess` call. */
  datatype Completion = Completion(state: LoginScreenState, navigated: bool)

  function OnLoginResult(s: LoginScreenState, result: ApiResult<LoginResponse>): (r: Completion)
    ensures r.navigated <==> result.Success?
    ensures result.Success? ==> r.state == s.(isLoading := false)
    ensures result.Error? ==> r.state == s.(isLoading := false, errorMessage := Some(result.message))
    ensures result.Loading? ==> r.state == s
  {
    match result
    case Success(_) => Completion(s.(isLoading := false), true)
    case Error(message, _) => Completion(s.(isLoading := false, errorMessage := Some(message)), false)
    case Loading => Completion(s, false)
  }

  /**
   * The inline check and `validateLoginForm` accept exactly the same
   * (email, password) pairs and flag the same fields; only the second-tier
   * email and password messages differ.
   */
  lemma AgreesWithValidateLoginForm(s: LoginScreenState, isValidEmail: string -> bool)
    ensures var v := LoginValidation.ValidateLoginForm(
              LoginValidation.LoginUiState(s.email, s.password, s.isPasswordVisible, s.isLoading, None, None),
              isValidEmail);
            var r := SignIn(s, isValidEmail);
            && (r.request.Some? <==> v.isValid)
            && (r.state.emailError.Some? <==> v.emailError.Some?)
            && (r.state.passwordError.Some? <==> v.passwordError.Some?)
            && (r.state.emailError == Some(EmailRequired) <==> v.emailError == Some(EmailRequired))
            && (r.state.passwordError == Some(PasswordRequired) <==> v.passwordError == Some(PasswordRequired))
  {
  }

  /** The outcome of Sign In does not depend on any message left from before. */
  lemma SignInIgnoresStaleMessages(s: LoginScreenState, e: Option<string>, p: Option<string>, m: Option<string>,
                                   isValidEmail: string -> bool)
    ensures SignIn(s.(emailError := e, passwordError := p, errorMessage := m), isValidEmail) == SignIn(s, isValidEmail)
  {
  }

  /** Every handler keeps the stored email trimmed, so it starts trimmed and stays so. */
  predicate EmailTrimmed(s: LoginScreenState) {
    IsTrimmed(s.email)
  }

  /** One user event on the screen. */
  datatype Event =
    | EditEmail(input: string)
    | EditPassword(input: string)
    | ToggleVisibility
    | PressSignIn
    | LoginAnswered(result: ApiResult<LoginResponse>)

  function Handle(s: LoginScreenState, e: Event, isValidEmail: string -> bool): LoginScreenState {
    match e
    case EditEmail(input) => OnEmailChange(s, input)
    case EditPassword(input) => OnPasswordChange(s, input)
    case ToggleVisibility => s.(isPasswordVisible := !s.isPasswordVisible)
    case PressSignIn => SignIn(s, isValidEmail).state
    case LoginAnswered(result) => OnLoginResult(s, result).state
  }

  function Run(s: LoginScreenState, es: seq<Event>, isValidEmail: string -> bool): LoginScreenState
    decreases |es|
  {
    if es == [] then s else Run(Handle(s, es[0], isValidEmail), es[1..], isValidEmail)
  }

  /**
   * Whatever the user types, the email the screen holds (and so submits) is
   * trimmed; in particular it is blank only when empty.
   */
  lemma {:induction false} StoredEmailAlwaysTrimmed(es: seq<Event>, isValidEmail: string -> bool)
    ensures EmailTrimmed(Run(Initial, es, isValidEmail))
    ensures IsBlank(Run(Initial, es, isValidEmail).email) <==> Run(Initial, es, isValidEmail).email == ""
  {
    RunKeepsEmailTrimmed(Initial, es, isValidEmail);
    TrimmedBlankIsEmpty(Run(Initial, es, isValidEmail).email);
  }

  lemma {:induction false} RunKeepsEmailTrimmed(s: LoginScreenState, es: seq<Event>, isValidEmail: string -> bool)
    requires EmailTrimmed(s)
    ensures EmailTrimmed(Run(s, es, isValidEmail))
    decreases |es|
  {
    if es != [] {
      RunKeepsEmailTrimmed(Handle(s, es[0], isValidEmail), es[1..], isValidEmail);
    }
  }
}

=== FILE: login_validation.dfy ===
/** `validateLoginForm`: the view model's check of the login form. */
module LoginValidation {
  import opened Wrappers
  import opened Text
  import opened FieldRules

  /** The login form state held by the view model. */
  datatype LoginUiState = LoginUiState(
    email: string,
    password: string,
    isPasswordVisible: bool,
    isLoading: bool,
    emailError: Option<string>,
    passwordError: Option<string>)

  /** The verdict and the per-field messages. */
  datatype ValidationResult = ValidationResult(isValid: bool, emailError: Option<string>, passwordError: Option<string>)

  const InvalidEmail := "Please enter a valid email"
  const PasswordTooShort := "Password must be at least 6 characters"

  /**
   * Both fields are always checked. The email error depends on the email
   * alone and the password error on the password alone; the form is valid
   * exactly when neither has an error.
   */
  function ValidateLoginForm(ui: LoginUiState, isValidEmail: string -> bool): (v: ValidationResult)
    ensures v.isValid <==> v.emailError.None? && v.passwordError.None?
    ensures v.isValid <==> !IsBlank(ui.email) && isValidEmail(ui.email)
                           && !IsBlank(ui.password) && Utf16Length(ui.password) >= MinPasswordLength
    ensures v.emailError == EmailError(ui.email, isValidEmail, InvalidEmail)
    ensures v.passwordError == PasswordError(ui.password, PasswordTooShort)
  {
    var emailError := EmailError(ui.email, isValidEmail, InvalidEmail);
    var passwordError := PasswordError(ui.password, PasswordTooShort);
    ValidationResult(emailError.None? && passwordError.None?, emailError, passwordError)
  }

  /** A password of six or more whitespace characters is "required", not accepted. */
  lemma WhitespacePasswordIsRequired(ui: LoginUiState, isValidEmail: string -> bool)
    requires IsBlank(ui.password)
    ensures ValidateLoginForm(ui, isValidEmail).passwordError == Some(PasswordRequired)
    ensures !ValidateLoginForm(ui, isValidEmail).isValid
  {
  }
}

=== FILE: login_view_model.dfy ===
/** `LoginViewModel`: the login form held as one immutable `LoginUiState`. */
module LoginViewModel {
  import opened Wrappers
  import opened Api
  import opened AuthModel
  import opened LoginValidation

  const Initial := LoginUiState("", "", false, false, None, None)

  /** Sets the email and clears the email error; nothing else changes. */
  function OnEmailChange(s: LoginUiState, email: string): (r: LoginUiState)
    ensures r.email == email && r.emailError.None?
    ensures r.(email := s.email, emailError := s.emailError) == s
  {
    s.(email := email, emailError := None)
  }

  /** Sets the password and clears the password error; nothing else changes. */
  function OnPasswordChange(s: LoginUiState, password: string): (r: LoginUiState)
    ensures r.password == password && r.passwordError.None?
    ensures r.(password := s.password, passwordError := s.passwordError) == s
  {
    s.(password := password, passwordError := None)
  }

  /** Flips the visibility flag and nothing else. */
  function TogglePasswordVisibility(s: LoginUiState): (r: LoginUiState)
    ensures r.isPasswordVisible != s.isPasswordVisible
    ensures r.(isPasswordVisible := s.isPasswordVisible) == s
  {
    s.(isPasswordVisible := !s.isPasswordVisible)
  }

  /** Toggling twice is the identity. */
  lemma ToggleTwice(s: LoginUiState)
    ensures TogglePasswordVisibility(TogglePasswordVisibility(s)) == s
  {
  }

  datatype LoginLaunch = LoginLaunch(state: LoginUiState, request: Option<(string, string)>)

  /**
   * `login`: an invalid form copies the validator's messages into the state,
   * leaves `isLoading` alone and calls nothing; a valid form sets `isLoading`
   * and calls the repository with the current email and password.
   */
  function Login(s: LoginUiState, isValidEmail: string -> bool): (r: LoginLaunch)
    ensures var v := ValidateLoginForm(s, isValidEmail);
            && (r.request.Some? <==> v.isValid)
            && (!v.isValid ==> r.state == s.(emailError := v.emailError, passwordError := v.passwordError))
            && (v.isValid ==> r.state == s.(isLoading := true) && r.request == Some((s.email, s.password)))
  {
    var v := ValidateLoginForm(s, isValidEmail);
    if !v.isValid then LoginLaunch(s.(emailError := v.emailError, passwordError := v.passwordError), None)
    else LoginLaunch(s.(isLoading := true), Some((s.email, s.password)))
  }

  datatype Completion = Completion(state: LoginUiState, calledOnSuccess: bool)

  /** Success and Error both clear `isLoading`; only Success calls `onSuccess`; Error stores no message. */
  function OnLoginResult(s: LoginUiState, result: ApiResult<LoginResponse>): (r: Completion)
    ensures r.calledOnSuccess <==> result.Success?
    ensures !result.Loading? ==> r.state == s.(isLoading := false)
    ensures result.Loading? ==> r.state == s
  {
    match result
    case Success(_) => Completion(s.(isLoading := false), true)
    case Error(_, _) => Completion(s.(isLoading := false), false)
    case Loading => Completion(s, false)
  }

  /**
   * Every message the state shows is the validator's current verdict on that
   * field, or nothing: a message is only ever set by `login`, and editing the
   * field clears it.
   */
  predicate MessagesCurrent(s: LoginUiState, isValidEmail: string -> bool) {
    var v := ValidateLoginForm(s, isValidEmail);
    && (s.emailError.None? || s.emailError == v.emailError)
    && (s.passwordError.None? || s.passwordError == v.passwordError)
  }

  datatype Event =
    | EmailChanged(email: string)
    | PasswordChanged(password: string)
    | ToggleVisibility
    | LoginPressed
    | LoginAnswered(result: ApiResult<LoginResponse>)

  function Handle(s: LoginUiState, e: Event, isValidEmail: string -> bool): LoginUiState {
    match e
    case EmailChanged(email) => OnEmailChange(s, email)
    case PasswordChanged(password) => OnPasswordChange(s, password)
    case ToggleVisibility => TogglePasswordVisibility(s)
    case LoginPressed => Login(s, isValidEmail).state
    case LoginAnswered(result) => OnLoginResult(s, result).state
  }

  /** Each event keeps the messages current. */
  lemma HandleKeepsMessagesCurrent(s: LoginUiState, e: Event, isValidEmail: string -> bool)
    requires MessagesCurrent(s, isValidEmail)
    ensures MessagesCurrent(Handle(s, e, isValidEmail), isValidEmail)
  {
  }

  function Run(s: LoginUiState, es: seq<Event>, isValidEmail: string -> bool): LoginUiState
    decreases |es|
  {
    if es == [] then s else Run(Handle(s, es[0], isValidEmail), es[1..], isValidEmail)
  }

  /**
   * From the initial state, whenever `login` finds the form valid the state
   * shows no stale field message, even though `login` itself never clears one.
   */
  lemma {:induction false} ValidLoginShowsNoStaleMessage(es: seq<Event>, isValidEmail: string -> bool)
    ensures var s := Run(Initial, es, isValidEmail);
            ValidateLoginForm(s, isValidEmail).isValid ==>
              Login(s, isValidEmail).state.emailError.None? && Login(s, isValidEmail).state.passwordError.None?
  {
    RunKeepsMessagesCurrent(Initial, es, isValidEmail);
  }

  lemma {:induction false} RunKeepsMessagesCurrent(s: LoginUiState, es: seq<Event>, isValidEmail: string -> bool)
    requires MessagesCurrent(s, isValidEmail)
    ensures MessagesCurrent(Run(s, es, isValidEmail), isValidEmail)
    decreases |es|
  {
    if es != [] {
      HandleKeepsMessagesCurrent(s, es[0], isValidEmail);
      RunKeepsMessagesCurrent(Handle(s, es[0], isValidEmail), es[1..], isValidEmail);
    }
  }
}

=== FILE: nav_graph.dfy ===
/**
 * The navigation graph: the start destination chosen from the stored token,
 * and the back stack each screen callback leaves behind. Navigation
 * Component is modelled by its back stack only: `navigate` pushes an entry,
 * `popUpTo(route) { inclusive = true }` first pops through the topmost entry
 * of that route (nothing when none is on the stack), and `popUpTo(0)`
 * inclusive pops through the root graph, that is, everything.
 */
module NavGraph {
  import opened Wrappers

  /** The destinations of this graph. */
  datatype Screen = Login | SignUp | ForgotPassword | OtpVerification | ResetPassword | Home | Scans | Apps | Alerts | Settings

  function Route(s: Screen): (r: string)
    ensures r != ""
  {
    match s
    case Login => "login"
    case SignUp => "signup"
    case ForgotPassword => "forgot_password"
    case OtpVerification => "otp_verification"
    case ResetPassword => "reset_password"
    case Home => "home"
    case Scans => "scans"
    case Apps => "apps"
    case Alerts => "alerts"
    case Settings => "settings"
  }

  /** A back-stack entry: a destination and the route arguments it was opened with ("" when it has none). */
  datatype Entry = Entry(screen: Screen, email: string, resetToken: string)

  function At(s: Screen): Entry {
    Entry(s, "", "")
  }

  /** The string passed to `navigate` for an entry: the route, then its query arguments. */
  function NavigateString(e: Entry): (r: string)
    ensures Route(e.screen) <= r
    ensures e.screen.OtpVerification? ==> r == "otp_verification?email=" + e.email
    ensures e.screen.ResetPassword? ==> r == "reset_password?email=" + e.email + "&resetToken=" + e.resetToken
    ensures !e.screen.OtpVerification? && !e.screen.ResetPassword? ==> r == Route(e.screen)
  {
    match e.screen
    case OtpVerification => Route(OtpVerification) + "?email=" + e.email
    case ResetPassword => Route(ResetPassword) + "?email=" + e.email + "&resetToken=" + e.resetToken
    case _ => Route(e.screen)
  }

  type BackStack = seq<Entry>

  /** The index of the topmost entry of `target`, or -1. */
  function LastIndexOf(stack: BackStack, target: Screen): (i: int)
    ensures -1 <= i < |stack|
    ensures i == -1 <==> forall j :: 0 <= j < |stack| ==> stack[j].screen != target
    ensures i >= 0 ==> stack[i].screen == target && forall j :: i < j < |stack| ==> stack[j].screen != target
  {
    if stack == [] then -1
    else if stack[|stack| - 1].screen == target then |stack| - 1
    else LastIndexOf(stack[..|stack| - 1], target)
  }

  /** What a `navigate` call pops before pushing. */
  datatype PopSpec = NoPop | PopUpToInclusive(target: Screen) | PopAll

  function Popped(stack: BackStack, spec: PopSpec): (r: BackStack)
    ensures |r| <= |stack| && r == stack[..|r|]
    ensures spec.PopAll? ==> r == []
    ensures spec.PopUpToInclusive? ==>
              if LastIndexOf(stack, spec.target) < 0 then r == stack
              else |r| == LastIndexOf(stack, spec.target)
  {
    match spec
    case NoPop => stack
    case PopAll => []
    case PopUpToInclusive(target) =>
      var i := LastIndexOf(stack, target);
      if i < 0 then stack else stack[..i]
  }

  function Navigate(stack: BackStack, e: Entry, spec: PopSpec): (r: BackStack)
    ensures |r| >= 1 && r[|r| - 1] == e && r[..|r| - 1] == Popped(stack, spec)
  {
    Popped(stack, spec) + [e]
  }

  /** `popBackStack()`: the top entry goes. */
  function Pop(stack: BackStack): (r: BackStack)
    ensures stack != [] ==> r == stack[..|stack| - 1]
    ensures stack == [] ==> r == []
  {
    if stack == [] then [] else stack[..|stack| - 1]
  }

  /** Before the token is read no graph is shown; afterwards the host runs on its back stack. */
  datatype Host = Deciding | Running(stack: BackStack)

  /** Home when a non-empty access token is stored, Login otherwise. */
  function StartDestination(token: Option<string>): (s: Screen)
    ensures s == Home <==> !NullOrEmpty(token)
    ensures s == Login <==> NullOrEmpty(token)
  {
    if !NullOrEmpty(token) then Home else Login
  }

  function Decide(token: Option<string>): (h: Host)
    ensures h.Running? && h.stack == [At(StartDestination(token))]
  {
    Running([At(StartDestination(token))])
  }

  /** The callbacks of the graph's screens, and the screen each belongs to. */
  datatype Event =
    | LoginSucceeded
    | GoToSignUp
    | GoToForgotPassword
    | SignUpSucceeded
    | SignUpBackToLogin
    | ForgotBack
    | ResetCodeSent(sentTo: string)
    | OtpBack
    | OtpVerified(resetToken: string)
    | ResetBack
    | PasswordReset
    | OpenFromHome(target: Screen)
    | LoggedOut

  function Owner(e: Event): Screen {
    match e
    case LoginSucceeded => Login
    case GoToSignUp => Login
    case GoToForgotPassword => Login
    case SignUpSucceeded => SignUp
    case SignUpBackToLogin => SignUp
    case ForgotBack => ForgotPassword
    case ResetCodeSent(_) => ForgotPassword
    case OtpBack => OtpVerification
    case OtpVerified(_) => OtpVerification
    case ResetBack => ResetPassword
    case PasswordReset => ResetPassword
    case OpenFromHome(_) => Home
    case LoggedOut => Settings
  }

  /** The home screen opens only these. */
  predicate OpensFromHome(s: Screen) {
    s == Alerts || s == Scans || s == Apps
  }

  /** What a callback does to the back stack: navigate, go back, or nothing. */
  datatype Action = Push(entry: Entry, spec: PopSpec) | Back | Stay

  function Apply(stack: BackStack, a: Action): BackStack {
    match a
    case Push(x, spec) => Navigate(stack, x, spec)
    case Back => Pop(stack)
    case Stay => stack
  }

  /** Sign-up success as written: Login is pushed after popping only the sign-up entry. */
  const SignUpSuccessAsWritten := Push(At(Login), PopUpToInclusive(SignUp))

  /**
   * Sign-up success as intended, "back to Login": everything up to and
   * including the Login entry below is popped before Login is pushed, so the
   * stack holds one Login.
   */
  const SignUpSuccessCorrected := Push(At(Login), PopUpToInclusive(Login))

  function SignUpSucceededAsWritten(stack: BackStack): BackStack {
    Apply(stack, SignUpSuccessAsWritten)
  }

  function SignUpSucceededCorrected(stack: BackStack): (r: BackStack)
    ensures |r| >= 1 && r[|r| - 1] == At(Login)
    ensures LastIndexOf(stack, Login) < 0 ==> r == stack + [At(Login)]
  {
    Apply(stack, SignUpSuccessCorrected)
  }

  /**
   * The action of a callback fired on the screen `top`, with the corrected
   * sign-up. The OTP screen forwards the email it was opened with. Login is
   * never pushed without first popping through the topmost Login, or
   * everything.
   */
  function Reaction(e: Event, top: Entry): (a: Action)
    ensures a.Push? && a.spec.NoPop? ==> a.entry.screen != Login
    ensures a.Push? && a.spec.PopUpToInclusive? ==> a.spec.target == Login
  {
    match e
    case LoginSucceeded => Push(At(Home), PopUpToInclusive(Login))
    case GoToSignUp => Push(At(SignUp), NoPop)
    case GoToForgotPassword => Push(At(ForgotPassword), NoPop)
    case SignUpSucceeded => SignUpSuccessCorrected
    case SignUpBackToLogin => Back
    case ForgotBack => Back
    case ResetCodeSent(email) => Push(Entry(OtpVerification, email, ""), NoPop)
    case OtpBack => Back
    case OtpVerified(resetToken) => Push(Entry(ResetPassword, top.email, resetToken), NoPop)
    case ResetBack => Back
    case PasswordReset => Push(At(Login), PopAll)
    case OpenFromHome(target) => if OpensFromHome(target) then Push(At(target), NoPop) else Stay
    case LoggedOut => Push(At(Login), PopAll)
  }

  /** One callback on the back stack. A callback fires only while its screen is on top; otherwise nothing changes. */
  function Handle(stack: BackStack, e: Event): (r: BackStack)
    ensures stack == [] || stack[|stack| - 1].screen != Owner(e) ==> r == stack
  {
    if stack == [] || stack[|stack| - 1].screen != Owner(e) then stack
    else Apply(stack, Reaction(e, stack[|stack| - 1]))
  }

  /** The graph as written: identical except for sign-up success. */
  function HandleAsWritten(stack: BackStack, e: Event): (r: BackStack)
    ensures e != SignUpSucceeded || stack == [] || stack[|stack| - 1].screen != SignUp ==> r == Handle(stack, e)
    ensures e == SignUpSucceeded && stack != [] && stack[|stack| - 1].screen == SignUp ==>
              r == Popped(stack, PopUpToInclusive(SignUp)) + [At(Login)]
  {
    if e == SignUpSucceeded && stack != [] && stack[|stack| - 1].screen == SignUp then SignUpSucceededAsWritten(stack)
    else Handle(stack, e)
  }

  function Run(stack: BackStack, es: seq<Event>): BackStack
    decreases |es|
  {
    if es == [] then stack else Run(Handle(stack, es[0]), es[1..])
  }

  /** As written, signing up and then logging in leaves a Login entry under Home, so Back returns to the login screen. */
  lemma SignUpThenLoginKeepsLoginAsWritten()
    ensures HandleAsWritten(HandleAsWritten(HandleAsWritten([At(Login)], GoToSignUp), SignUpSucceeded), LoginSucceeded)
              == [At(Login), At(Home)]
  {
    var s1 := [At(Login), At(SignUp)];
    assert Handle([At(Login)], GoToSignUp) == Navigate([At(Login)], At(SignUp), NoPop);
    assert HandleAsWritten([At(Login)], GoToSignUp) == s1;
    assert LastIndexOf(s1, SignUp) == 1;
    assert Popped(s1, PopUpToInclusive(SignUp)) == [At(Login)];
    var s2 := [At(Login), At(Login)];
    assert HandleAsWritten(s1, SignUpSucceeded) == s2;
    assert LastIndexOf(s2, Login) == 1;
    assert Popped(s2, PopUpToInclusive(Login)) == [At(Login)];
    assert Handle(s2, LoginSucceeded) == Navigate(s2, At(Home), PopUpToInclusive(Login));
  }

  function CountScreen(stack: BackStack, s: Screen): nat {
    if stack == [] then 0
    else CountScreen(stack[..|stack| - 1], s) + (if stack[|stack| - 1].screen == s then 1 else 0)
  }

  lemma {:induction false} CountZeroIffAbsent(stack: BackStack, s: Screen)
    ensures CountScreen(stack, s) == 0 <==> LastIndexOf(stack, s) < 0
    decreases |stack|
  {
    if stack != [] {
      CountZeroIffAbsent(stack[..|stack| - 1], s);
    }
  }

  lemma {:induction false} CountPrefix(stack: BackStack, n: nat, s: Screen)
    requires n <= |stack|
    ensures CountScreen(stack[..n], s) <= CountScreen(stack, s)
    decreases |stack|
  {
    if n < |stack| {
      assert stack[..|stack| - 1][..n] == stack[..n];
      CountPrefix(stack[..|stack| - 1], n, s);
    } else {
      assert stack[..n] == stack;
    }
  }

  lemma CountPush(stack: BackStack, e: Entry, s: Screen)
    ensures CountScreen(stack + [e], s) == CountScreen(stack, s) + (if e.screen == s then 1 else 0)
  {
    assert (stack + [e])[..|stack + [e]| - 1] == stack;
  }

  /** Popping through the topmost Login removes the only Login there was. */
  lemma PopThroughLogin(stack: BackStack)
    requires CountScreen(stack, Login) <= 1
    ensures CountScreen(Popped(stack, PopUpToInclusive(Login)), Login) == 0
  {
    var i := LastIndexOf(stack, Login);
    if i < 0 {
      CountZeroIffAbsent(stack, Login);
    } else {
      var upTo := stack[..i + 1];
      assert upTo[..|upTo| - 1] == stack[..i];
      CountPrefix(stack, i + 1, Login);
    }
  }

  /** A push of anything but Login, or a push after popping every Login, keeps at most one Login. */
  lemma NavigateKeepsOneLogin(stack: BackStack, x: Entry, spec: PopSpec)
    requires CountScreen(stack, Login) <= 1
    requires spec.NoPop? ==> x.screen != Login
    requires spec.PopUpToInclusive? ==> spec.target == Login
    ensures CountScreen(Navigate(stack, x, spec), Login) <= 1
  {
    var popped := Popped(stack, spec);
    if spec.PopUpToInclusive? {
      PopThroughLogin(stack);
    } else if spec.PopAll? {
      assert popped == [];
    }
    CountPush(popped, x, Login);
  }

  /** Popping the top entry never adds a Login. */
  lemma PopKeepsOneLogin(stack: BackStack)
    requires CountScreen(stack, Login) <= 1
    ensures CountScreen(Pop(stack), Login) <= 1
  {
    if stack != [] {
      CountPrefix(stack, |stack| - 1, Login);
    }
  }

  /** With the corrected graph no callback makes the back stack hold two Login entries. */
  lemma HandleKeepsOneLogin(stack: BackStack, e: Event)
    requires CountScreen(stack, Login) <= 1
    ensures CountScreen(Handle(stack, e), Login) <= 1
  {
    if stack != [] && stack[|stack| - 1].screen == Owner(e) {
      match Reaction(e, stack[|stack| - 1])
      case Push(x, spec) => NavigateKeepsOneLogin(stack, x, spec);
      case Back => PopKeepsOneLogin(stack);
      case Stay =>
    }
  }

  lemma {:induction false} RunKeepsOneLogin(stack: BackStack, es: seq<Event>)
    requires CountScreen(stack, Login) <= 1
    ensures CountScreen(Run(stack, es), Login) <= 1
    decreases |es|
  {
    if es != [] {
      HandleKeepsOneLogin(stack, es[0]);
      RunKeepsOneLogin(Handle(stack, es[0]), es[1..]);
    }
  }

  /**
   * The intended property: whatever the user did since launch, after a
   * successful login no Login entry is left under Home, so Back does not
   * return to the login screen.
   */
  lemma LoginLeavesNoLoginBehind(token: Option<string>, es: seq<Event>)
    requires var stack := Run(Decide(token).stack, es);
             stack != [] && stack[|stack| - 1].screen == Login
    ensures var after := Handle(Run(Decide(token).stack, es), LoginSucceeded);
            after[|after| - 1] == At(Home) && LastIndexOf(after, Login) < 0
  {
    var start := Decide(token).stack;
    assert start == [] + [At(StartDestination(token))];
    CountPush([], At(StartDestination(token)), Login);
    RunKeepsOneLogin(start, es);
    var stack := Run(start, es);
    PopThroughLogin(stack);
    var popped := Popped(stack, PopUpToInclusive(Login));
    CountPush(popped, At(Home), Login);
    CountZeroIffAbsent(popped + [At(Home)], Login);
  }

  /** Password reset and logout both leave exactly one entry, the login screen. */
  lemma ResetAndLogoutClearTheStack(stack: BackStack)
    requires stack != []
    ensures stack[|stack| - 1].screen == ResetPassword ==> Handle(stack, PasswordReset) == [At(Login)]
    ensures stack[|stack| - 1].screen == Settings ==> Handle(stack, LoggedOut) == [At(Login)]
  {
  }

  /** A callback that navigates without popping puts its entry on top of the stack it fired on. */
  lemma ForwardStep(stack: BackStack, e: Event)
    requires stack != [] && stack[|stack| - 1].screen == Owner(e)
    requires Reaction(e, stack[|stack| - 1]).Push? && Reaction(e, stack[|stack| - 1]).spec.NoPop?
    ensures Handle(stack, e) == stack + [Reaction(e, stack[|stack| - 1]).entry]
  {
  }

  /**
   * The forgotten-password flow from Login carries the email, then the token,
   * to the reset screen; the last two pushes navigate to the strings that
   * carry them as query arguments.
   */
  lemma ForgotPasswordFlow(email: string, resetToken: string)
    ensures Handle(Handle(Handle([At(Login)], GoToForgotPassword), ResetCodeSent(email)), OtpVerified(resetToken)) ==
              [At(Login), At(ForgotPassword), Entry(OtpVerification, email, ""), Entry(ResetPassword, email, resetToken)]
    ensures NavigateString(Entry(OtpVerification, email, "")) == "otp_verification?email=" + email
    ensures NavigateString(Entry(ResetPassword, email, resetToken)) ==
              "reset_password?email=" + email + "&resetToken=" + resetToken
  {
    var s0 := [At(Login)];
    ForwardStep(s0, GoToForgotPassword);
    var s1 := s0 + [At(ForgotPassword)];
    ForwardStep(s1, ResetCodeSent(email));
    var s2 := s1 + [Entry(OtpVerification, email, "")];
    ForwardStep(s2, OtpVerified(resetToken));
  }
}

=== FILE: otp_screen.dfy ===
/**
 * The Verify OTP screen: a length gate on input, a length check on submit. A
 * valid verdict first shows the "OTP verified" snackbar and only when it
 * closes calls `onVerifySuccess` with the code; meanwhile the field stays
 * editable and, loading being over, the button is enabled again.
 */
module OtpScreen {
  import opened Wrappers
  import opened Text
  import opened Api
  import opened AuthModel

  /**
   * The screen's four state holders, plus the coroutine's view: `inFlight` is
   * the code the request in flight carried (meaningful while loading), and
   * `confirming` is the code found valid while its snackbar is showing.
   */
  datatype OtpState = OtpState(
    otp: string,
    isLoading: bool,
    otpError: Option<string>,
    errorMessage: Option<string>,
    inFlight: string,
    confirming: Option<string>)

  const Initial := OtpState("", false, None, None, "", None)

  /** The code length, in UTF-16 code units. */
  const OtpLength := 6

  /** An edit longer than six code units is ignored; a shorter or equal one replaces the code and clears its error. */
  function OnOtpChange(s: OtpState, input: string): (r: OtpState)
    ensures Utf16Length(input) <= OtpLength ==> r == s.(otp := input, otpError := None)
    ensures Utf16Length(input) > OtpLength ==> r == s
  {
    if Utf16Length(input) <= OtpLength then s.(otp := input, otpError := None) else s
  }

  datatype VerifyStep = VerifyStep(state: OtpState, request: Option<(string, string)>)

  /**
   * Verify: both messages are cleared; unless the code is exactly six code
   * units long the error is set and nothing is sent. Only the length is
   * checked, not that the characters are digits.
   */
  function Verify(s: OtpState, email: string): (r: VerifyStep)
    ensures r.state.errorMessage.None? && r.state.otp == s.otp && r.state.confirming == s.confirming
    ensures r.request.Some? <==> Utf16Length(s.otp) == OtpLength
    ensures r.request.None? ==> r.state == s.(otpError := Some("OTP must be 6 digits"), errorMessage := None)
    ensures r.request.Some? ==>
              r.request.value == (email, s.otp) && r.state.isLoading && r.state.inFlight == s.otp && r.state.otpError.None?
  {
    var cleared := s.(errorMessage := None, otpError := None);
    if Utf16Length(s.otp) != OtpLength then VerifyStep(cleared.(otpError := Some("OTP must be 6 digits")), None)
    else VerifyStep(cleared.(isLoading := true, inFlight := s.otp), Some((email, s.otp)))
  }

  /**
   * Every answer clears `isLoading`. A valid verdict starts the confirmation
   * snackbar for the code sent; an invalid one shows "Invalid OTP code"; an
   * error shows its message.
   */
  function OnVerifyResult(s: OtpState, result: ApiResult<VerifyOtpResponse>): (r: OtpState)
    ensures !r.isLoading
    ensures result.Success? && result.data.valid ==> r.confirming == Some(s.inFlight)
    ensures !(result.Success? && result.data.valid) ==> r.confirming == s.confirming
    ensures result.Success? && !result.data.valid ==> r.errorMessage == Some("Invalid OTP code")
    ensures result.Error? ==> r.errorMessage == Some(result.message)
    ensures result.Loading? || (result.Success? && result.data.valid) ==> r.errorMessage == s.errorMessage
    ensures r.otp == s.otp && r.otpError == s.otpError && r.inFlight == s.inFlight
  {
    match result
    case Success(data) =>
      if data.valid then s.(isLoading := false, confirming := Some(s.inFlight))
      else s.(isLoading := false, errorMessage := Some("Invalid OTP code"))
    case Error(message, _) => s.(isLoading := false, errorMessage := Some(message))
    case Loading => s.(isLoading := false)
  }

  /** `onVerifySuccess(resetToken)`, when called. */
  datatype Completion = Completion(state: OtpState, resetToken: Option<string>)

  /** As written: when the snackbar closes, `onVerifySuccess` gets the field's value at that moment. */
  function CloseConfirmationAsWritten(s: OtpState): (r: Completion)
    ensures r.resetToken.Some? <==> s.confirming.Some?
    ensures r.resetToken.Some? ==> r.resetToken.value == s.otp
    ensures r.state == s.(confirming := None)
  {
    if s.confirming.Some? then Completion(s.(confirming := None), Some(s.otp)) else Completion(s, None)
  }

  /** As intended: `onVerifySuccess` gets the code the server found valid. */
  function CloseConfirmation(s: OtpState): (r: Completion)
    ensures r.resetToken == s.confirming
    ensures r.state == s.(confirming := None)
  {
    if s.confirming.Some? then Completion(s.(confirming := None), Some(s.confirming.value)) else Completion(s, None)
  }

  datatype Event = Edit(input: string) | PressVerify | VerifyAnswered(result: ApiResult<VerifyOtpResponse>) | SnackbarClosed

  /** What the screen does outside itself: a verification request, or `onVerifySuccess`. */
  datatype Output = Checked(email: string, otp: string) | HandedOn(resetToken: string)

  datatype Step = Step(state: OtpState, out: seq<Output>)

  /**
   * One event. The button is disabled while loading, and an answer belongs to
   * the request in flight, so a press while loading and an answer while not
   * loading change nothing. `asWritten` picks how the snackbar closes.
   */
  function React(s: OtpState, e: Event, email: string, asWritten: bool): (r: Step)
    ensures e.Edit? ==> r == Step(OnOtpChange(s, e.input), [])
    ensures e.PressVerify? && s.isLoading ==> r == Step(s, [])
    ensures e.VerifyAnswered? && !s.isLoading ==> r == Step(s, [])
  {
    match e
    case Edit(input) => Step(OnOtpChange(s, input), [])
    case PressVerify =>
      if s.isLoading then Step(s, [])
      else
        var p := Verify(s, email);
        Step(p.state, if p.request.Some? then [Checked(email, s.otp)] else [])
    case VerifyAnswered(result) => if s.isLoading then Step(OnVerifyResult(s, result), []) else Step(s, [])
    case SnackbarClosed =>
      var c := if asWritten then CloseConfirmationAsWritten(s) else CloseConfirmation(s);
      Step(c.state, if c.resetToken.Some? then [HandedOn(c.resetToken.value)] else [])
  }

  /** The events in turn, appending what each does to the trace `out`. */
  function Run(s: OtpState, es: seq<Event>, email: string, asWritten: bool, out: seq<Output>): Step
    decreases |es|
  {
    if es == [] then Step(s, out)
    else
      var first := React(s, es[0], email, asWritten);
      Run(first.state, es[1..], email, asWritten, out + first.out)
  }

  /** No code in the state, and no token handed on, is longer than six code units. */
  ghost predicate Short(s: OtpState, out: seq<Output>) {
    && Utf16Length(s.otp) <= OtpLength
    && Utf16Length(s.inFlight) <= OtpLength
    && (s.confirming.Some? ==> Utf16Length(s.confirming.value) <= OtpLength)
    && forall i :: 0 <= i < |out| && out[i].HandedOn? ==> Utf16Length(out[i].resetToken) <= OtpLength
  }

  lemma ReactKeepsShort(s: OtpState, out: seq<Output>, e: Event, email: string, asWritten: bool)
    requires Short(s, out)
    ensures var r := React(s, e, email, asWritten); Short(r.state, out + r.out)
  {
    var r := React(s, e, email, asWritten);
    if r.out != [] {
      assert |r.out| == 1;
      assert (out + r.out)[|out|] == r.out[0];
    }
  }

  /** The stored code never exceeds six code units: only short enough edits are taken. */
  lemma {:induction false} OtpNeverTooLong(s: OtpState, es: seq<Event>, email: string, asWritten: bool, out: seq<Output>)
    requires Short(s, out)
    ensures var r := Run(s, es, email, asWritten, out); Short(r.state, r.out)
    decreases |es|
  {
    if es != [] {
      var first := React(s, es[0], email, asWritten);
      ReactKeepsShort(s, out, es[0], email, asWritten);
      OtpNeverTooLong(first.state, es[1..], email, asWritten, out + first.out);
    }
  }

  /**
   * From the initial state, as written: the code never exceeds six code
   * units, and so neither does a reset token handed on; it can be shorter
   * (see EditBeforeConfirmationAsWritten).
   */
  lemma OtpFromInitialNeverTooLong(es: seq<Event>, email: string)
    ensures var r := Run(Initial, es, email, true, []);
            && Utf16Length(r.state.otp) <= OtpLength
            && forall i :: 0 <= i < |r.out| && r.out[i].HandedOn? ==> Utf16Length(r.out[i].resetToken) <= OtpLength
  {
    OtpNeverTooLong(Initial, es, email, true, []);
  }

  /**
   * As written, with no edit between the press and the snackbar closing, the
   * token handed on is the code the server found valid.
   */
  lemma VerifySuccessPassesCheckedCode(s: OtpState, email: string, data: VerifyOtpResponse)
    requires !s.isLoading && Utf16Length(s.otp) == OtpLength && data.valid
    ensures var pressed := React(s, PressVerify, email, true);
            var answered := React(pressed.state, VerifyAnswered(Success(data)), email, true);
            var closed := React(answered.state, SnackbarClosed, email, true);
            pressed.out == [Checked(email, s.otp)] && answered.out == [] && closed.out == [HandedOn(s.otp)]
  {
  }

  /**
   * As written, an edit while the snackbar shows changes the token handed on:
   * with "12" typed, the reset-password screen gets a two-unit token no
   * server check has seen.
   */
  lemma EditBeforeConfirmationAsWritten(s: OtpState, email: string, data: VerifyOtpResponse)
    requires !s.isLoading && Utf16Length(s.otp) == OtpLength && data.valid
    ensures var pressed := React(s, PressVerify, email, true);
            var answered := React(pressed.state, VerifyAnswered(Success(data)), email, true);
            var edited := React(answered.state, Edit("12"), email, true);
            var closed := React(edited.state, SnackbarClosed, email, true);
            pressed.out == [Checked(email, s.otp)] && closed.out == [HandedOn("12")]
            && Utf16Length("12") != OtpLength
  {
    assert Utf16Length("12") == 2;
  }

  /** Every request and hand-on so far is accounted for by the trace `out`. */
  ghost predicate Accounted(s: OtpState, email: string, out: seq<Output>) {
    && (s.isLoading ==> Checked(email, s.inFlight) in out && Utf16Length(s.inFlight) == OtpLength)
    && (s.confirming.Some? ==> Checked(email, s.confirming.value) in out && Utf16Length(s.confirming.value) == OtpLength)
    && forall i :: 0 <= i < |out| && out[i].HandedOn? ==>
         Checked(email, out[i].resetToken) in out[..i] && Utf16Length(out[i].resetToken) == OtpLength
  }

  lemma AppendKeepsPrefixes(out: seq<Output>, more: seq<Output>)
    ensures forall i :: 0 <= i <= |out| ==> (out + more)[..i] == out[..i]
  {
    forall i | 0 <= i <= |out|
      ensures (out + more)[..i] == out[..i]
    {
      assert (out + more)[..i] == out[..i];
    }
  }

  lemma HandleKeepsAccounted(s: OtpState, email: string, out: seq<Output>, e: Event)
    requires Accounted(s, email, out)
    ensures var r := React(s, e, email, false); Accounted(r.state, email, out + r.out)
  {
    var r := React(s, e, email, false);
    AppendKeepsPrefixes(out, r.out);
    var all := out + r.out;
    if r.out != [] {
      assert |r.out| == 1;
      assert all[..|out|] == out;
      forall i | 0 <= i < |all| && all[i].HandedOn?
        ensures Checked(email, all[i].resetToken) in all[..i] && Utf16Length(all[i].resetToken) == OtpLength
      {
        if i == |out| {
          assert e.SnackbarClosed? && s.confirming.Some? && all[i].resetToken == s.confirming.value;
        } else {
          assert all[i] == out[i];
        }
      }
    }
  }

  lemma {:induction false} RunKeepsAccounted(s: OtpState, es: seq<Event>, email: string, out: seq<Output>)
    requires Accounted(s, email, out)
    ensures var r := Run(s, es, email, false, out); Accounted(r.state, email, r.out)
    decreases |es|
  {
    if es != [] {
      var first := React(s, es[0], email, false);
      HandleKeepsAccounted(s, email, out, es[0]);
      RunKeepsAccounted(first.state, es[1..], email, out + first.out);
    }
  }

  /**
   * The intended property: whatever the user types and presses, every reset
   * token handed on is a six-unit code the server was asked about before.
   */
  lemma HandedOnTokenWasChecked(es: seq<Event>, email: string)
    ensures var out := Run(Initial, es, email, false, []).out;
            forall i :: 0 <= i < |out| && out[i].HandedOn? ==>
              Checked(email, out[i].resetToken) in out[..i] && Utf16Length(out[i].resetToken) == OtpLength
  {
    RunKeepsAccounted(Initial, es, email, []);
  }
}

=== FILE: register_device_screen.dfy ===
/**
 * The Register Device screen: on entry it decides whether this device is
 * already registered (server check, else the locally cached device
 * identifier); its button either moves on or registers the device.
 */
module RegisterDeviceScreen {
  import opened Wrappers
  import opened Text
  import opened Api
  import opened AuthModel

  datatype DeviceScreen = DeviceScreen(
    isLoading: bool,
    errorMessage: Option<string>,
    isDeviceRegistered: bool,
    registeredDeviceId: Option<string>,
    isCheckingStatus: bool)

  const Initial := DeviceScreen(false, None, false, None, true)

  /** The device identifier saved in shared preferences, if any. */
  type Cache = Option<string>

  const Unknown := "unknown"
  const Platform := "android"
  const AppVersion := "1.2.3"

  /** `ANDROID_ID`, or "unknown" when the platform has none. */
  function DeviceIdentifier(androidId: Option<string>): (id: string)
    ensures androidId.Some? ==> id == androidId.value
    ensures androidId.None? ==> id == Unknown
  {
    androidId.GetOr(Unknown)
  }

  /** The server is asked only with a non-empty token and a known device identifier. */
  predicate AsksServer(token: Option<string>, id: string) {
    !NullOrEmpty(token) && id != Unknown
  }

  /** A `checkDeviceRegistration(deviceIdentifier, platform)` call. */
  datatype CheckCall = CheckCall(deviceIdentifier: string, platform: string)

  datatype CheckOutcome = CheckOutcome(state: DeviceScreen, cache: Cache, sent: Option<CheckCall>)

  /** Without a server verdict, a non-empty cached identifier counts as registered. */
  function CacheFallback(s: DeviceScreen, cache: Cache): (r: DeviceScreen)
    ensures r.isDeviceRegistered == (s.isDeviceRegistered || !NullOrEmpty(cache))
    ensures r == s.(isDeviceRegistered := r.isDeviceRegistered)
  {
    if !NullOrEmpty(cache) then s.(isDeviceRegistered := true) else s
  }

  /**
   * The entry check. A server verdict decides `isDeviceRegistered` (even
   * against the cache, which a negative verdict does not clear); a positive
   * verdict with a device records its id and caches its identifier, or ours
   * when it has none. Any other answer, or no question, falls back to the
   * cache. The check ends either way.
   */
  function CheckStatus(s: DeviceScreen, token: Option<string>, id: string, cache: Cache,
                       check: ApiResult<DeviceCheckResponse>): (r: CheckOutcome)
    ensures !r.state.isCheckingStatus
    ensures r.sent.Some? <==> AsksServer(token, id)
    ensures r.sent.Some? ==> r.sent.value == CheckCall(id, Platform)
    ensures AsksServer(token, id) && check.Success? ==> r.state.isDeviceRegistered == check.data.isRegistered
    ensures !(AsksServer(token, id) && check.Success?) ==>
              r.state.isDeviceRegistered == (s.isDeviceRegistered || !NullOrEmpty(cache))
    ensures r.cache != cache ==>
              AsksServer(token, id) && check.Success? && check.data.isRegistered && check.data.device.Some? &&
              r.cache == Some(check.data.device.value.deviceIdentifier.GetOr(id))
    ensures AsksServer(token, id) && check.Success? && check.data.isRegistered && check.data.device.Some? ==>
              r.state.registeredDeviceId == Some(check.data.device.value.mongoId) &&
              r.cache == Some(check.data.device.value.deviceIdentifier.GetOr(id))
    ensures !(AsksServer(token, id) && check.Success? && check.data.isRegistered && check.data.device.Some?) ==>
              r.state.registeredDeviceId == s.registeredDeviceId
    ensures (r.state.isLoading, r.state.errorMessage) == (s.isLoading, s.errorMessage)
  {
    var done := s.(isCheckingStatus := false);
    if AsksServer(token, id) then
      var sent := Some(CheckCall(id, Platform));
      match check
      case Success(resp) =>
        var marked := done.(isDeviceRegistered := resp.isRegistered);
        if resp.isRegistered && resp.device.Some? then
          CheckOutcome(marked.(registeredDeviceId := Some(resp.device.value.mongoId)),
                       Some(resp.device.value.deviceIdentifier.GetOr(id)), sent)
        else CheckOutcome(marked, cache, sent)
      case _ => CheckOutcome(CacheFallback(done, cache), cache, sent)
    else CheckOutcome(CacheFallback(done, cache), cache, None)
  }

  /** The button is disabled while registering and while the entry check runs. */
  predicate ButtonEnabled(s: DeviceScreen) {
    !s.isLoading && !s.isCheckingStatus
  }

  /** What a press does before any request: move on when registered, else start loading. */
  datatype Press = Press(state: DeviceScreen, navigated: bool, launched: bool)

  function PressRegister(s: DeviceScreen): (r: Press)
    ensures !ButtonEnabled(s) ==> r == Press(s, false, false)
    ensures ButtonEnabled(s) && s.isDeviceRegistered ==> r == Press(s, true, false)
    ensures r.launched <==> ButtonEnabled(s) && !s.isDeviceRegistered
    ensures r.launched ==> r.state == s.(errorMessage := None, isLoading := true) && !r.navigated
  {
    if !ButtonEnabled(s) then Press(s, false, false)
    else if s.isDeviceRegistered then Press(s, true, false)
    else Press(s.(errorMessage := None, isLoading := true), false, true)
  }

  /** The registration POST, with the access token it is authorised by. */
  datatype RegisterCall = RegisterCall(token: string, request: RegisterDeviceRequest)

  datatype RegisterOutcome = RegisterOutcome(state: DeviceScreen, cache: Cache, sent: Option<RegisterCall>, navigated: bool)

  const NotLoggedIn := "You must be logged in"
  const FailedPrefix := "Failed: "

  /**
   * The message of the exception a response that is not a 2xx with a body
   * throws: the `message` of its error body, null when the body parses
   * without one, or "Registration failed: HTTP <code>" when there is no
   * readable body (a 2xx response has no error body at all).
   */
  function ResponseFailure(code: int, errorBody: ErrorBody): (m: Option<string>)
    ensures IsSuccessful(code) || errorBody.Unreadable? ==> m == Some("Registration failed: HTTP " + IntToString(code))
    ensures !IsSuccessful(code) && errorBody.Message? ==> m == Some(errorBody.text)
    ensures !IsSuccessful(code) && errorBody.NoMessage? ==> m.None?
  {
    var fallback := Some("Registration failed: HTTP " + IntToString(code));
    if IsSuccessful(code) then fallback
    else
      match errorBody
      case Unreadable => fallback
      case NoMessage => None
      case Message(text) => Some(text)
  }

  /**
   * The launched registration. An empty or missing token stops with "You
   * must be logged in". Otherwise the device is posted; a 2xx with a body
   * caches the identifier the server returned (or ours) and moves on; any
   * other outcome shows "Failed: " and its reason, a missing exception
   * message printing as "null". Loading ends on every path.
   */
  function RegisterLaunched(s: DeviceScreen, token: Option<string>, id: string, osVersion: string, deviceModel: string,
                            cache: Cache, h: Http<RegisterDeviceResponse>): (r: RegisterOutcome)
    ensures !r.state.isLoading
    ensures token.GetOr("") == "" ==> r == RegisterOutcome(s.(errorMessage := Some(NotLoggedIn), isLoading := false), cache, None, false)
    ensures token.GetOr("") != "" ==>
              r.sent == Some(RegisterCall(token.value, RegisterDeviceRequest(Platform, osVersion, deviceModel, AppVersion, id)))
    ensures r.navigated <==> token.GetOr("") != "" && h.Response? && IsSuccessful(h.code) && h.body.Some?
    ensures r.navigated ==> r.cache == Some(h.body.value.device.deviceIdentifier.GetOr(id)) && r.state.errorMessage == s.errorMessage
    ensures !r.navigated ==> r.cache == cache
    ensures token.GetOr("") != "" && h.Response? && !r.navigated ==>
              r.state.errorMessage == Some(FailedPrefix + ResponseFailure(h.code, h.errorBody).GetOr("null"))
    ensures token.GetOr("") != "" && h.Thrown? ==> r.state.errorMessage == Some(FailedPrefix + h.message.GetOr("null"))
    ensures r.state.isDeviceRegistered == s.isDeviceRegistered && r.state.isCheckingStatus == s.isCheckingStatus
  {
    var t := token.GetOr("");
    if t == "" then RegisterOutcome(s.(errorMessage := Some(NotLoggedIn), isLoading := false), cache, None, false)
    else
      var sent := Some(RegisterCall(t, RegisterDeviceRequest(Platform, osVersion, deviceModel, AppVersion, id)));
      match h
      case Response(code, body, errorBody, _) =>
        if IsSuccessful(code) && body.Some? then
          RegisterOutcome(s.(isLoading := false), Some(body.value.device.deviceIdentifier.GetOr(id)), sent, true)
        else
          RegisterOutcome(s.(errorMessage := Some(FailedPrefix + ResponseFailure(code, errorBody).GetOr("null")), isLoading := false),
                          cache, sent, false)
      case Thrown(m) =>
        RegisterOutcome(s.(errorMessage := Some(FailedPrefix + m.GetOr("null")), isLoading := false), cache, sent, false)
  }

  /** Every message the launched registration can show is the login notice or starts with "Failed: ". */
  lemma RegisterMessages(s: DeviceScreen, token: Option<string>, id: string, osVersion: string, deviceModel: string,
                         cache: Cache, h: Http<RegisterDeviceResponse>)
    requires s.errorMessage.None?
    ensures var m := RegisterLaunched(s, token, id, osVersion, deviceModel, cache, h).state.errorMessage;
            m.None? || m == Some(NotLoggedIn) ||
            (|m.value| >= |FailedPrefix| && m.value[..|FailedPrefix|] == FailedPrefix)
  {
  }

  /**
   * A successful registration is remembered: when the server answered with a
   * non-empty identifier (or with none, ours being non-empty), a later entry
   * check that gets no server verdict shows the device as registered.
   */
  lemma RegistrationRemembered(s: DeviceScreen, token: Option<string>, id: string, osVersion: string, deviceModel: string,
                               cache: Cache, h: Http<RegisterDeviceResponse>,
                               later: Option<string>, check: ApiResult<DeviceCheckResponse>)
    requires RegisterLaunched(s, token, id, osVersion, deviceModel, cache, h).navigated
    requires h.body.value.device.deviceIdentifier.GetOr(id) != ""
    requires !(AsksServer(later, id) && check.Success?)
    ensures var saved := RegisterLaunched(s, token, id, osVersion, deviceModel, cache, h).cache;
            CheckStatus(Initial, later, id, saved, check).state.isDeviceRegistered
  {
  }

  /** From the entry state the status shown is the server's verdict when there is one, else whether an identifier is cached. */
  lemma EntryDecision(token: Option<string>, id: string, cache: Cache, check: ApiResult<DeviceCheckResponse>)
    ensures var r := CheckStatus(Initial, token, id, cache, check);
            ButtonEnabled(r.state) &&
            (r.state.isDeviceRegistered <==>
               if AsksServer(token, id) && check.Success? then check.data.isRegistered else !NullOrEmpty(cache))
  {
  }
}

=== FILE: reset_password_screen.dfy ===
/** The Reset Password screen: new password and confirmation, then `resetPassword`. */
module ResetPasswordScreen {
  import opened Wrappers
  import opened Text
  import opened FieldRules
  import opened Api
  import opened AuthModel

  datatype ResetState = ResetState(
    password: string,
    confirmPassword: string,
    isLoading: bool,
    passwordError: Option<string>,
    confirmPasswordError: Option<string>,
    errorMessage: Option<string>)

  const Initial := ResetState("", "", false, None, None, None)

  const PasswordTooShort := "Password must be at least 6 characters"

  /** The request the screen sends: email and token from its route, the new password from the form. */
  datatype ResetRequest = ResetRequest(email: string, resetToken: string, newPassword: string)

  datatype ResetStep = ResetStep(state: ResetState, request: Option<ResetRequest>)

  /**
   * Reset Password: all messages are cleared; the password and the
   * confirmation are checked independently; the request goes out only when
   * neither failed, carrying `email` and `resetToken` unchanged.
   */
  function SubmitReset(s: ResetState, email: string, resetToken: string): (r: ResetStep)
    ensures r.state.errorMessage.None?
    ensures r.state.passwordError == PasswordError(s.password, PasswordTooShort)
    ensures r.state.confirmPasswordError == ConfirmationError(s.password, s.confirmPassword)
    ensures r.request.Some? <==> r.state.passwordError.None? && r.state.confirmPasswordError.None?
    ensures r.request.Some? ==>
              r.request.value == ResetRequest(email, resetToken, s.password) && r.state.isLoading
    ensures r.request.None? ==> r.state.isLoading == s.isLoading
  {
    var checked := s.(errorMessage := None,
                      passwordError := PasswordError(s.password, PasswordTooShort),
                      confirmPasswordError := ConfirmationError(s.password, s.confirmPassword));
    if checked.passwordError.Some? || checked.confirmPasswordError.Some? then ResetStep(checked, None)
    else ResetStep(checked.(isLoading := true), Some(ResetRequest(email, resetToken, s.password)))
  }

  datatype Completion = Completion(state: ResetState, calledOnSuccess: bool)

  /** Every answer clears `isLoading`; only Success calls `onResetSuccess`; Error shows its message. */
  function OnResetResult(s: ResetState, result: ApiResult<GenericMessageResponse>): (r: Completion)
    ensures !r.state.isLoading
    ensures r.calledOnSuccess <==> result.Success?
    ensures result.Error? ==> r.state == s.(isLoading := false, errorMessage := Some(result.message))
    ensures !result.Error? ==> r.state == s.(isLoading := false)
  {
    match result
    case Success(_) => Completion(s.(isLoading := false), true)
    case Error(message, _) => Completion(s.(isLoading := false, errorMessage := Some(message)), false)
    case Loading => Completion(s.(isLoading := false), false)
  }

  /** A request is sent exactly for a non-blank password of six or more code units, confirmed exactly. */
  lemma ResetAcceptance(s: ResetState, email: string, resetToken: string)
    ensures SubmitReset(s, email, resetToken).request.Some? <==>
              !IsBlank(s.password) && Utf16Length(s.password) >= MinPasswordLength && s.confirmPassword == s.password
  {
  }
}

=== FILE: seqs.dfy ===
/** Kotlin's `List.filter`, with the facts the screens need about it. */
module Seqs {

  /** The elements of `s` that satisfy `keep`, in their original order. */
  function Filter<T(!new)>(s: seq<T>, keep: T -> bool): (r: seq<T>)
    ensures |r| <= |s|
    ensures forall i :: 0 <= i < |r| ==> r[i] in s && keep(r[i])
    ensures forall i :: 0 <= i < |s| && keep(s[i]) ==> s[i] in r
  {
    if s == [] then []
    else (if keep(s[0]) then [s[0]] else []) + Filter(s[1..], keep)
  }

  /** Each kept value occurs as often as in the input, each dropped one not at all. */
  lemma {:induction false} FilterCounts<T(!new)>(s: seq<T>, keep: T -> bool)
    ensures forall x :: multiset(Filter(s, keep))[x] == if keep(x) then multiset(s)[x] else 0
  {
    if s != [] {
      FilterCounts(s[1..], keep);
      assert s == [s[0]] + s[1..];
      assert multiset(s) == multiset([s[0]]) + multiset(s[1..]);
    }
  }

  /** Filtering distributes over concatenation, so relative order is kept. */
  lemma {:induction false} FilterConcat<T(!new)>(a: seq<T>, b: seq<T>, keep: T -> bool)
    ensures Filter(a + b, keep) == Filter(a, keep) + Filter(b, keep)
  {
    if a == [] {
      assert a + b == b;
    } else {
      assert (a + b)[0] == a[0];
      assert (a + b)[1..] == a[1..] + b;
      FilterConcat(a[1..], b, keep);
    }
  }

  /** When every element is kept, filtering changes nothing. */
  lemma {:induction false} FilterKeepsAll<T(!new)>(s: seq<T>, keep: T -> bool)
    requires forall i :: 0 <= i < |s| ==> keep(s[i])
    ensures Filter(s, keep) == s
  {
    if s != [] {
      FilterKeepsAll(s[1..], keep);
    }
  }

  /** Filtering twice by the same test is filtering once. */
  lemma FilterIdempotent<T(!new)>(s: seq<T>, keep: T -> bool)
    ensures Filter(Filter(s, keep), keep) == Filter(s, keep)
  {
    var r := Filter(s, keep);
    FilterKeepsAll(r, keep);
  }
}

=== FILE: sign_up_screen.dfy ===
/** The Create Account screen: inline validation of every field, then `register`. */
module SignUpScreen {
  import opened Wrappers
  import opened Text
  import opened FieldRules
  import opened Api
  import opened User
  import opened AuthModel

  /** The form as typed; every field is stored verbatim. */
  datatype SignUpForm = SignUpForm(
    name: string,
    surname: string,
    email: string,
    password: string,
    confirmPassword: string,
    phone: string,
    acceptedTerms: bool)

  datatype SignUpErrors = SignUpErrors(
    nameError: Option<string>,
    surnameError: Option<string>,
    emailError: Option<string>,
    passwordError: Option<string>,
    confirmPasswordError: Option<string>,
    phoneError: Option<string>,
    errorMessage: Option<string>)

  const NoErrors := SignUpErrors(None, None, None, None, None, None, None)

  datatype SignUpState = SignUpState(form: SignUpForm, errors: SignUpErrors, isLoading: bool)

  const InvalidEmail := "Invalid email"
  /** The length message exactly as the characters stand in the source file (a mis-encoded "≥6 characters"). */
  const PasswordTooShort := "\U{00E2}\U{2030}\U{00A5}6 characters"
  const InvalidPhone := "Invalid phone"
  const AcceptTerms := "Accept Terms & Privacy"

  predicate IsAsciiDigit(c: char) {
    '0' <= c <= '9'
  }

  predicate AllAsciiDigits(s: string) {
    forall i :: 0 <= i < |s| ==> IsAsciiDigit(s[i])
  }

  /**
   * A full match of `^\+?[1-9]\d{1,14}$`: an optional plus sign, then 2 to
   * 15 ASCII digits of which the first is not zero (the 15-digit maximum of
   * ITU-T Recommendation E.164).
   */
  predicate IsE164Phone(p: string) {
    var digits := if |p| > 0 && p[0] == '+' then p[1..] else p;
    2 <= |digits| <= 15 && AllAsciiDigits(digits) && digits[0] != '0'
  }

  /** The pattern run as the compiled matcher does, one character at a time. */
  method MatchPhonePattern(p: string) returns (matched: bool)
    ensures matched <==> IsE164Phone(p)
  {
    var start := if |p| > 0 && p[0] == '+' then 1 else 0;
    ghost var digits := p[start..];
    if start >= |p| || !('1' <= p[start] <= '9') {
      return false;
    }
    var j := start + 1;
    while j < |p|
      invariant start + 1 <= j <= |p|
      invariant j - start <= 15
      invariant AllAsciiDigits(p[start..j])
    {
      if !IsAsciiDigit(p[j]) {
        assert digits[j - start] == p[j];
        return false;
      }
      if j - start == 15 {
        return false;
      }
      assert p[start..j + 1] == p[start..j] + [p[j]];
      j := j + 1;
    }
    assert p[start..j] == digits;
    return j - start >= 2;
  }

  /** A blank phone is accepted; any other must match the pattern. */
  function PhoneError(phone: string): (e: Option<string>)
    ensures e.None? <==> IsBlank(phone) || IsE164Phone(phone)
    ensures e.Some? ==> e.value == InvalidPhone
  {
    if !IsBlank(phone) && !IsE164Phone(phone) then Some(InvalidPhone) else None
  }

  /** Every check runs, so several messages can appear at once; name and surname never get one. */
  function Validate(f: SignUpForm, isValidEmail: string -> bool): (e: SignUpErrors)
    ensures e.nameError.None? && e.surnameError.None?
    ensures e.emailError == EmailError(f.email, isValidEmail, InvalidEmail)
    ensures e.passwordError == PasswordError(f.password, PasswordTooShort)
    ensures e.confirmPasswordError == ConfirmationError(f.password, f.confirmPassword)
    ensures e.phoneError == PhoneError(f.phone)
    ensures e.errorMessage == (if f.acceptedTerms then None else Some(AcceptTerms))
  {
    SignUpErrors(
      None, None,
      EmailError(f.email, isValidEmail, InvalidEmail),
      PasswordError(f.password, PasswordTooShort),
      ConfirmationError(f.password, f.confirmPassword),
      PhoneError(f.phone),
      if f.acceptedTerms then None else Some(AcceptTerms))
  }

  predicate NoneSet(e: SignUpErrors) {
    && e.nameError.None? && e.surnameError.None? && e.emailError.None? && e.passwordError.None?
    && e.confirmPasswordError.None? && e.phoneError.None? && e.errorMessage.None?
  }

  datatype CreateStep = CreateStep(state: SignUpState, request: Option<RegisterRequest>)

  /**
   * Create Account: every message is replaced by this submission's verdict;
   * `register` is called only when none is set, with the five text fields
   * exactly as typed.
   */
  function CreateAccount(s: SignUpState, isValidEmail: string -> bool): (r: CreateStep)
    ensures r.state.form == s.form
    ensures r.state.errors == Validate(s.form, isValidEmail)
    ensures r.request.Some? <==> NoneSet(r.state.errors)
    ensures r.request.Some? <==>
              && !IsBlank(s.form.email) && isValidEmail(s.form.email)
              && !IsBlank(s.form.password) && Utf16Length(s.form.password) >= MinPasswordLength
              && s.form.confirmPassword == s.form.password
              && (IsBlank(s.form.phone) || IsE164Phone(s.form.phone))
              && s.form.acceptedTerms
    ensures r.request.Some? ==>
              && r.request.value == RegisterRequest(s.form.name, s.form.surname, s.form.email, s.form.password, s.form.phone)
              && r.state.isLoading
    ensures r.request.None? ==> r.state.isLoading == s.isLoading
  {
    var errors := Validate(s.form, isValidEmail);
    if !NoneSet(errors) then CreateStep(s.(errors := errors), None)
    else
      var f := s.form;
      CreateStep(s.(errors := errors, isLoading := true),
                 Some(RegisterRequest(f.name, f.surname, f.email, f.password, f.phone)))
  }

  datatype Completion = Completion(state: SignUpState, calledOnSuccess: bool)

  /** Success and Error clear `isLoading`; Success calls `onSignUpSuccess`; Error shows its message. */
  function OnRegisterResult(s: SignUpState, result: ApiResult<RegisterResponse>): (r: Completion)
    ensures r.calledOnSuccess <==> result.Success?
    ensures result.Success? ==> r.state == s.(isLoading := false)
    ensures result.Error? ==> r.state == s.(isLoading := false, errors := s.errors.(errorMessage := Some(result.message)))
    ensures result.Loading? ==> r.state == s
  {
    match result
    case Success(_) => Completion(s.(isLoading := false), true)
    case Error(message, _) => Completion(s.(isLoading := false, errors := s.errors.(errorMessage := Some(message))), false)
    case Loading => Completion(s, false)
  }

  /** The confirmation is compared whatever the password's own verdict: a short password can still match. */
  lemma ConfirmationIndependentOfPassword(f: SignUpForm, isValidEmail: string -> bool)
    requires f.password == f.confirmPassword
    ensures Validate(f, isValidEmail).confirmPasswordError.None?
  {
  }

  /** Phone examples: the pattern's boundaries. */
  lemma PhoneExamples()
    ensures IsE164Phone("+12") && IsE164Phone("123456789012345")
    ensures !IsE164Phone("1") && !IsE164Phone("+0123") && !IsE164Phone("1234567890123456") && !IsE164Phone("+")
  {
    assert !IsAsciiDigit('+');
  }
}

=== FILE: text.dfy ===
/**
 * The Kotlin string operations the screens rely on: `isBlank`, `trim`,
 * `length` (UTF-16 code units) and `contains(…, ignoreCase = true)`.
 */
module Text {

  /**
   * Kotlin's `Char.isWhitespace()` on the JVM: `Character.isWhitespace(c)` or
   * `Character.isSpaceChar(c)`, i.e. the ASCII controls TAB..CR and FS..US and
   * every space, line or paragraph separator, non-breaking ones included.
   */
  predicate IsWhitespace(c: char) {
    || ('\t' <= c <= '\r')
    || ('\U{001C}' <= c <= '\U{001F}')
    || c == ' '
    || c == '\U{00A0}'
    || c == '\U{1680}'
    || ('\U{2000}' <= c <= '\U{200A}')
    || c == '\U{2028}'
    || c == '\U{2029}'
    || c == '\U{202F}'
    || c == '\U{205F}'
    || c == '\U{3000}'
  }

  /** Kotlin's `isBlank()`: empty, or whitespace only. */
  predicate IsBlank(s: string) {
    forall i :: 0 <= i < |s| ==> IsWhitespace(s[i])
  }

  /** Neither end of `s` is whitespace. */
  predicate IsTrimmed(s: string) {
    s == [] || (!IsWhitespace(s[0]) && !IsWhitespace(s[|s| - 1]))
  }

  /** The number of whitespace characters `s` starts with. */
  function LeadingWhitespace(s: string): (n: nat)
    ensures n <= |s|
    ensures forall i :: 0 <= i < n ==> IsWhitespace(s[i])
    ensures n < |s| ==> !IsWhitespace(s[n])
  {
    if |s| > 0 && IsWhitespace(s[0]) then 1 + LeadingWhitespace(s[1..]) else 0
  }

  /** Where the trailing whitespace of `s` begins. */
  function TrailingWhitespaceStart(s: string): (m: nat)
    ensures m <= |s|
    ensures forall i :: m <= i < |s| ==> IsWhitespace(s[i])
    ensures m > 0 ==> !IsWhitespace(s[m - 1])
  {
    if |s| > 0 && IsWhitespace(s[|s| - 1]) then TrailingWhitespaceStart(s[..|s| - 1]) else |s|
  }

  /**
   * Kotlin's `trim()`: the longest middle slice of `s` that neither starts
   * nor ends with whitespace; everything cut away is whitespace.
   */
  function Trim(s: string): (r: string)
    ensures IsTrimmed(r)
    ensures exists a :: 0 <= a && a + |r| <= |s| && r == s[a..a + |r|]
                      && IsBlank(s[..a]) && IsBlank(s[a + |r|..])
  {
    var a := LeadingWhitespace(s);
    if a == |s| then
      assert IsBlank(s[..a]) && IsBlank(s[a..]);
      assert [] == s[a..a];
      []
    else
      var m := TrailingWhitespaceStart(s);
      assert a < m;
      var r := s[a..m];
      assert a + |r| == m;
      assert IsBlank(s[..a]) && IsBlank(s[a + |r|..]);
      r
  }

  /** A string is blank exactly when trimming it leaves nothing. */
  lemma BlankIffTrimsToEmpty(s: string)
    ensures IsBlank(s) <==> Trim(s) == ""
  {
    var a := LeadingWhitespace(s);
    if a < |s| {
      assert !IsWhitespace(s[a]);
      assert a < TrailingWhitespaceStart(s);
    }
  }

  /** Trimming a string that is already trimmed changes nothing. */
  lemma TrimmedIsFixpoint(s: string)
    requires IsTrimmed(s)
    ensures Trim(s) == s
  {
    if s != [] {
      assert LeadingWhitespace(s) == 0;
      assert TrailingWhitespaceStart(s) == |s|;
      assert s[0..|s|] == s;
    }
  }

  /** `trim()` is idempotent. */
  lemma TrimIdempotent(s: string)
    ensures Trim(Trim(s)) == Trim(s)
  {
    TrimmedIsFixpoint(Trim(s));
  }

  /** A trimmed string is blank only when it is empty. */
  lemma TrimmedBlankIsEmpty(s: string)
    requires IsTrimmed(s)
    ensures IsBlank(s) <==> s == ""
  {
    if s != [] { assert !IsWhitespace(s[0]); }
  }

  /** The number of UTF-16 code units of one character. */
  function Utf16Units(c: char): (n: nat)
    ensures n == 1 || n == 2
  {
    if c as int > 0xFFFF then 2 else 1
  }

  /**
   * Kotlin's `String.length`: UTF-16 code units, so a character outside the
   * Basic Multilingual Plane counts twice.
   */
  function Utf16Length(s: string): (n: nat)
    ensures |s| <= n <= 2 * |s|
    ensures (forall i :: 0 <= i < |s| ==> s[i] as int <= 0xFFFF) ==> n == |s|
  {
    if s == [] then 0 else Utf16Units(s[0]) + Utf16Length(s[1..])
  }

  /** A word of lower-case ASCII letters, the shape of every needle the source searches for. */
  type LowerWord = w: string | forall i :: 0 <= i < |w| ==> 'a' <= w[i] <= 'z'

  /**
   * Kotlin's `Char.equals(d, ignoreCase = true)` for a lower-case ASCII letter `d`:
   * the two upper-case forms agree, or the lower-case forms of those do. Besides
   * `d` and its capital this admits U+017F (upper-cases to S), U+0131 (to I),
   * U+0130 (lower-cases to i) and U+212A (lower-cases to k).
   */
  predicate CharEqualsIgnoreCase(c: char, d: char)
    requires 'a' <= d <= 'z'
  {
    || c == d
    || c as int == d as int - 32
    || (d == 's' && c == '\U{017F}')
    || (d == 'i' && (c == '\U{0131}' || c == '\U{0130}'))
    || (d == 'k' && c == '\U{212A}')
  }

  /** `needle` occurs in `hay` at offset `i`, ignoring case. */
  predicate MatchesAt(hay: string, i: nat, needle: LowerWord) {
    && i + |needle| <= |hay|
    && forall j :: 0 <= j < |needle| ==> CharEqualsIgnoreCase(hay[i + j], needle[j])
  }

  /**
   * Kotlin's `indexOf(needle, from, ignoreCase = true)`, with offsets counted
   * in characters where Kotlin counts UTF-16 units: the first offset at or
   * after `from` where `needle` occurs, or -1. Whether there is a match, all
   * that `contains` asks, does not depend on how offsets are counted.
   */
  function IndexOfIgnoreCase(hay: string, needle: LowerWord, from: nat): (r: int)
    decreases |hay| - from
    ensures r == -1 || (from <= r && MatchesAt(hay, r, needle))
    ensures r == -1 ==> forall i :: from <= i ==> !MatchesAt(hay, i, needle)
    ensures r >= 0 ==> forall i :: from <= i < r ==> !MatchesAt(hay, i, needle)
  {
    if from + |needle| > |hay| then -1
    else if MatchesAt(hay, from, needle) then from
    else IndexOfIgnoreCase(hay, needle, from + 1)
  }

  /** Kotlin's `hay.contains(needle, ignoreCase = true)`. */
  predicate ContainsIgnoreCase(hay: string, needle: LowerWord)
    ensures ContainsIgnoreCase(hay, needle) <==> exists i: nat :: MatchesAt(hay, i, needle)
  {
    IndexOfIgnoreCase(hay, needle, 0) >= 0
  }

  /** The decimal digits of `n`, as Kotlin's string template prints an Int. */
  function NatToString(n: nat): string
  {
    var d := ['0', '1', '2', '3', '4', '5', '6', '7', '8', '9'][n % 10];
    if n < 10 then [d] else NatToString(n / 10) + [d]
  }

  /** An Int in a string template: a minus sign, then the digits. */
  function IntToString(i: int): string
  {
    if i < 0 then "-" + NatToString(-i) else NatToString(i)
  }
}

=== FILE: token_manager.dfy ===
/**
 * The persisted session: a key/value store of four strings (the DataStore
 * file "auth_prefs").
 */
module TokenManager {
  import opened Wrappers

  datatype Key = AccessToken | RefreshToken | UserEmail | UserId

  type Store = map<Key, string>

  /** A fresh install: nothing stored. */
  const Empty: Store := map[]

  /** The current value of a key, `null` when absent (the first value of the matching Flow). */
  function Get(s: Store, k: Key): Option<string> {
    if k in s then Some(s[k]) else None
  }

  /** `saveToken`: only the access token changes. */
  function SaveToken(s: Store, token: string): (r: Store)
    ensures Get(r, AccessToken) == Some(token)
    ensures forall k :: k != AccessToken ==> Get(r, k) == Get(s, k)
  {
    s[AccessToken := token]
  }

  /** `saveRefreshToken`: only the refresh token changes. */
  function SaveRefreshToken(s: Store, token: string): (r: Store)
    ensures Get(r, RefreshToken) == Some(token)
    ensures forall k :: k != RefreshToken ==> Get(r, k) == Get(s, k)
  {
    s[RefreshToken := token]
  }

  /** `saveUserInfo`: the user id and email are written together, nothing else. */
  function SaveUserInfo(s: Store, userId: string, email: string): (r: Store)
    ensures Get(r, UserId) == Some(userId) && Get(r, UserEmail) == Some(email)
    ensures Get(r, AccessToken) == Get(s, AccessToken)
    ensures Get(r, RefreshToken) == Get(s, RefreshToken)
  {
    s[UserId := userId][UserEmail := email]
  }

  /** `clearToken`: every key goes, the user info included. */
  function ClearToken(s: Store): (r: Store)
    ensures forall k :: Get(r, k).None?
  {
    map[]
  }

  /** `getTokenSync`: the stored access token, `null` when none is stored. */
  function GetTokenSync(s: Store): (r: Option<string>)
    ensures r.Some? <==> AccessToken in s
    ensures r.Some? ==> r.value == s[AccessToken]
  {
    Get(s, AccessToken)
  }

  /** `getRefreshTokenSync`: the stored refresh token, `null` when none is stored. */
  function GetRefreshTokenSync(s: Store): (r: Option<string>)
    ensures r.Some? <==> RefreshToken in s
    ensures r.Some? ==> r.value == s[RefreshToken]
  {
    Get(s, RefreshToken)
  }

  /** One write to the store. */
  datatype Write =
    | SaveTokenOp(token: string)
    | SaveRefreshTokenOp(token: string)
    | SaveUserInfoOp(userId: string, email: string)
    | ClearOp

  function Apply(s: Store, w: Write): Store {
    match w
    case SaveTokenOp(t) => SaveToken(s, t)
    case SaveRefreshTokenOp(t) => SaveRefreshToken(s, t)
    case SaveUserInfoOp(id, e) => SaveUserInfo(s, id, e)
    case ClearOp => ClearToken(s)
  }

  /** The store after a history of writes, from a fresh install. */
  function Replay(ws: seq<Write>): Store {
    if ws == [] then Empty else Apply(Replay(ws[..|ws| - 1]), ws[|ws| - 1])
  }

  /** What the last write touching `k` left there: its value, or nothing after a clear or no write at all. */
  function LastWrite(ws: seq<Write>, k: Key): Option<string> {
    if ws == [] then None
    else
      var w := ws[|ws| - 1];
      match w
      case ClearOp => None
      case SaveTokenOp(t) => if k == AccessToken then Some(t) else LastWrite(ws[..|ws| - 1], k)
      case SaveRefreshTokenOp(t) => if k == RefreshToken then Some(t) else LastWrite(ws[..|ws| - 1], k)
      case SaveUserInfoOp(id, e) =>
        if k == UserId then Some(id) else if k == UserEmail then Some(e) else LastWrite(ws[..|ws| - 1], k)
  }

  /** Reading a key returns the last value saved under it, or null if never saved or since cleared. */
  lemma {:induction false} ReadsLastWrite(ws: seq<Write>, k: Key)
    ensures Get(Replay(ws), k) == LastWrite(ws, k)
  {
    if ws != [] {
      ReadsLastWrite(ws[..|ws| - 1], k);
    }
  }

  /** The synchronous token getters in terms of the write history. */
  lemma TokenReadsLastSave(ws: seq<Write>)
    ensures GetTokenSync(Replay(ws)) == LastWrite(ws, AccessToken)
    ensures GetRefreshTokenSync(Replay(ws)) == LastWrite(ws, RefreshToken)
  {
    ReadsLastWrite(ws, AccessToken);
    ReadsLastWrite(ws, RefreshToken);
  }
}

=== FILE: update_profile_screen.dfy ===
/**
 * The Update Profile screen: the profile is fetched once on entry, three
 * trimmed fields are edited, and an update is sent only when none is blank
 * and the user id is known.
 */
module UpdateProfileScreen {
  import opened Wrappers
  import opened Text
  import opened Api
  import opened User

  datatype ProfileState = ProfileState(
    isLoading: bool,
    isFetching: bool,
    errorMessage: Option<string>,
    name: string,
    surname: string,
    phone: string,
    email: string,
    userId: Option<string>,
    nameError: Option<string>,
    surnameError: Option<string>,
    phoneError: Option<string>)

  /** On entry the fetch is pending and every field is empty. */
  const Initial := ProfileState(false, true, None, "", "", "", "", None, None, None, None)

  const NameRequired := "First name is required"
  const SurnameRequired := "Last name is required"
  const PhoneRequired := "Phone number is required"

  /**
   * The answer to the profile fetch ends the fetching phase. Success fills the
   * form from the user, missing names and phone becoming empty; Error shows
   * its message. The field errors are not touched.
   */
  function OnProfileFetched(s: ProfileState, result: ApiResult<User>): (r: ProfileState)
    ensures !r.isFetching
    ensures result.Success? ==>
              r.userId == Some(Uid(result.data)) && r.email == result.data.email &&
              r.name == result.data.name.GetOr("") && r.surname == result.data.surname.GetOr("") &&
              r.phone == result.data.phone.GetOr("") && r.errorMessage == s.errorMessage
    ensures result.Error? ==> r == s.(errorMessage := Some(result.message), isFetching := false)
    ensures result.Loading? ==> r == s.(isFetching := false)
    ensures (r.nameError, r.surnameError, r.phoneError, r.isLoading) == (s.nameError, s.surnameError, s.phoneError, s.isLoading)
  {
    match result
    case Success(user) =>
      s.(userId := Some(Uid(user)), name := user.name.GetOr(""), surname := user.surname.GetOr(""),
         phone := user.phone.GetOr(""), email := user.email, isFetching := false)
    case Error(message, _) => s.(errorMessage := Some(message), isFetching := false)
    case Loading => s.(isFetching := false)
  }

  datatype Field = Name | Surname | Phone

  /** Each editable field stores its input trimmed and clears its own error and the screen message. */
  function OnFieldChange(s: ProfileState, f: Field, input: string): (r: ProfileState)
    ensures r.errorMessage.None?
    ensures f == Name ==> r == s.(name := Trim(input), nameError := None, errorMessage := None)
    ensures f == Surname ==> r == s.(surname := Trim(input), surnameError := None, errorMessage := None)
    ensures f == Phone ==> r == s.(phone := Trim(input), phoneError := None, errorMessage := None)
  {
    match f
    case Name => s.(name := Trim(input), nameError := None, errorMessage := None)
    case Surname => s.(surname := Trim(input), surnameError := None, errorMessage := None)
    case Phone => s.(phone := Trim(input), phoneError := None, errorMessage := None)
  }

  /** The button is disabled while an update or the initial fetch is in flight. */
  predicate ButtonEnabled(s: ProfileState) {
    !s.isLoading && !s.isFetching
  }

  /** The arguments of `updateProfile`: the user id and the three form fields. */
  datatype UpdateCall = UpdateCall(userId: string, name: string, surname: string, phone: string)

  datatype UpdateStep = UpdateStep(state: ProfileState, request: Option<UpdateCall>)

  /**
   * Update Profile. Blank fields get their error; the errors of non-blank
   * fields are left as they were, not cleared. Nothing is sent when a field is
   * blank or the user id is unknown; otherwise loading starts, the message is
   * cleared and the update goes out. A disabled button does nothing.
   */
  function PressUpdate(s: ProfileState): (r: UpdateStep)
    ensures !ButtonEnabled(s) ==> r == UpdateStep(s, None)
    ensures ButtonEnabled(s) ==>
              r.state.nameError == (if IsBlank(s.name) then Some(NameRequired) else s.nameError) &&
              r.state.surnameError == (if IsBlank(s.surname) then Some(SurnameRequired) else s.surnameError) &&
              r.state.phoneError == (if IsBlank(s.phone) then Some(PhoneRequired) else s.phoneError)
    ensures r.request.Some? <==>
              ButtonEnabled(s) && !IsBlank(s.name) && !IsBlank(s.surname) && !IsBlank(s.phone) && s.userId.Some?
    ensures r.request.Some? ==>
              r.request.value == UpdateCall(s.userId.value, s.name, s.surname, s.phone) &&
              r.state == s.(isLoading := true, errorMessage := None)
    ensures r.request.None? ==> r.state.isLoading == s.isLoading && r.state.errorMessage == s.errorMessage
  {
    if !ButtonEnabled(s) then UpdateStep(s, None)
    else
      var checked := s.(nameError := if IsBlank(s.name) then Some(NameRequired) else s.nameError,
                        surnameError := if IsBlank(s.surname) then Some(SurnameRequired) else s.surnameError,
                        phoneError := if IsBlank(s.phone) then Some(PhoneRequired) else s.phoneError);
      if IsBlank(s.name) || IsBlank(s.surname) || IsBlank(s.phone) || s.userId.None? then UpdateStep(checked, None)
      else UpdateStep(checked.(isLoading := true, errorMessage := None),
                      Some(UpdateCall(s.userId.value, s.name, s.surname, s.phone)))
  }

  /** Whether `onUpdateSuccess` and then `onBack` were called. */
  datatype Completion = Completion(state: ProfileState, leftScreen: bool)

  /** Every answer clears `isLoading`; Success leaves the screen; Error shows its message. */
  function OnUpdateResult(s: ProfileState, result: ApiResult<User>): (r: Completion)
    ensures !r.state.isLoading
    ensures r.leftScreen <==> result.Success?
    ensures result.Error? ==> r.state == s.(errorMessage := Some(result.message), isLoading := false)
    ensures !result.Error? ==> r.state == s.(isLoading := false)
  {
    match result
    case Success(_) => Completion(s.(isLoading := false), true)
    case Error(message, _) => Completion(s.(errorMessage := Some(message), isLoading := false), false)
    case Loading => Completion(s.(isLoading := false), false)
  }

  datatype Event =
    | ProfileFetched(fetched: ApiResult<User>)
    | Edit(field: Field, input: string)
    | PressUpdateButton
    | UpdateAnswered(updated: ApiResult<User>)

  /** The launched fetch answers once, while the screen is still fetching; a later answer cannot arrive. */
  function Handle(s: ProfileState, e: Event): ProfileState {
    match e
    case ProfileFetched(result) => if s.isFetching then OnProfileFetched(s, result) else s
    case Edit(f, input) => OnFieldChange(s, f, input)
    case PressUpdateButton => PressUpdate(s).state
    case UpdateAnswered(result) => OnUpdateResult(s, result).state
  }

  function Run(s: ProfileState, es: seq<Event>): ProfileState
    decreases |es|
  {
    if es == [] then s else Run(Handle(s, es[0]), es[1..])
  }

  /**
   * Although pressing Update never clears a field error, an error is never
   * stale: it is only set on a blank field, and any edit of that field clears
   * it. Before the fetch answers no error exists.
   */
  predicate ErrorsCurrent(s: ProfileState) {
    (s.isFetching ==> s.nameError.None? && s.surnameError.None? && s.phoneError.None?) &&
    (s.nameError.Some? ==> IsBlank(s.name)) &&
    (s.surnameError.Some? ==> IsBlank(s.surname)) &&
    (s.phoneError.Some? ==> IsBlank(s.phone))
  }

  lemma HandleKeepsErrorsCurrent(s: ProfileState, e: Event)
    requires ErrorsCurrent(s)
    ensures ErrorsCurrent(Handle(s, e))
  {
    match e
    case ProfileFetched(result) =>
    case Edit(f, input) =>
    case PressUpdateButton =>
    case UpdateAnswered(result) =>
  }

  lemma {:induction false} RunKeepsErrorsCurrent(s: ProfileState, es: seq<Event>)
    requires ErrorsCurrent(s)
    ensures ErrorsCurrent(Run(s, es))
    decreases |es|
  {
    if es != [] {
      HandleKeepsErrorsCurrent(s, es[0]);
      RunKeepsErrorsCurrent(Handle(s, es[0]), es[1..]);
    }
  }

  /** From the entry state, an error shown under a field always describes that field as it now is. */
  lemma ShownErrorsAreCurrent(es: seq<Event>)
    ensures var s := Run(Initial, es);
            (s.nameError.Some? ==> IsBlank(s.name)) &&
            (s.surnameError.Some? ==> IsBlank(s.surname)) &&
            (s.phoneError.Some? ==> IsBlank(s.phone))
  {
    RunKeepsErrorsCurrent(Initial, es);
  }
}

=== FILE: user.dfy ===
/** The user record the backend returns, and the request bodies built from form fields. */
module User {
  import opened Wrappers

  /**
   * A user as decoded from JSON. The backend sends the identifier either as
   * `_id` (here `mongoId`) or as `id`; both are kept.
   */
  datatype User = User(
    mongoId: Option<string>,
    id: Option<string>,
    email: string,
    name: Option<string>,
    surname: Option<string>,
    phone: Option<string>,
    avatar: Option<string>,
    role: Option<string>,
    isDeviceRegistered: Option<bool>)

  /** The convenience identifier: `_id`, else `id`, else the empty string. Never null. */
  function Uid(u: User): (r: string)
    ensures u.mongoId.Some? ==> r == u.mongoId.value
    ensures u.mongoId.None? && u.id.Some? ==> r == u.id.value
    ensures u.mongoId.None? && u.id.None? ==> r == ""
  {
    u.mongoId.GetOr(u.id.GetOr(""))
  }

  /** The identifier either came from the record or is the empty fallback. */
  lemma UidOrigin(u: User)
    ensures Uid(u) == "" || Some(Uid(u)) == u.mongoId || Some(Uid(u)) == u.id
    ensures Uid(u) == "" ==> u.mongoId == Some("") || (u.mongoId.None? && (u.id.None? || u.id == Some("")))
  {
  }

  /** POST /api/users/register body. */
  datatype RegisterRequest = RegisterRequest(name: string, surname: string, email: string, password: string, phone: string)

  /** PUT profile body. */
  datatype UpdateProfileRequest = UpdateProfileRequest(name: Option<string>, surname: Option<string>, phone: Option<string>)
}

=== FILE: wrappers.dfy ===
/** Kotlin's nullable values, as an Option datatype. */
module Wrappers {

  /** `T?` in the source: None stands for `null`. */
  datatype Option<+T> = None | Some(value: T) {

    /** Kotlin's elvis operator `this ?: default`. */
    function GetOr(default: T): (r: T)
      ensures Some? ==> r == value
      ensures None? ==> r == default
    {
      match this
      case Some(v) => v
      case None => default
    }
  }

  /** Kotlin's `isNullOrEmpty()` on a `String?`. */
  predicate NullOrEmpty(s: Option<string>) {
    s.None? || s.value == ""
  }
}
